=== FILE: README.md ===
# Folder sync engine: a Dafny model

This project models the synchronisation core of a browser/Electron app. One
peer (the sender) shares a folder with another peer (the receiver) over a
single ordered data channel. Everything the model covers lives in `app.js`:

- **Indexing** (`indexFolder`, `scanDirectoryPath` / `scanDirectory`,
  `hashFilePath` / `hashFile`, `normalizePath`):
  - the walk records each folder's readable files first, then its subfolders;
  - every file is cut into 16 MiB blocks and each block is hashed;
  - the manifest is built with version 1, the file count, the total size and the folder list;
  - more than 10 000 files is refused.
- **Sending** (`handleSenderMessage`, `sendBlock`):
  - a `request_block` is answered by slicing the block into 256 KiB chunks and sending `block_chunk` messages in order, then `block_complete`;
  - a read problem produces a single `error` message;
  - a paused sender drops the request.
- **Receiving** (`handleReceiverMessage`, `receiveChunk`, `completeBlock`,
  `requestNextBlock`, `startReceiving`, `selectTargetFolder`):
  - chunk payloads go into per-(file, block) slot records;
  - on `block_complete` the slots are concatenated in index order and the digest is compared with the manifest;
  - a verified block is written at `block * BLOCK_SIZE`;
  - the receiver then asks for block `completedBlocks` of the first unfinished file, or completes the transfer.
- **Control** (`handleIncomingConnection`, `handleApproval`, `pauseTransfer`,
  `resumeTransfer`, `cancelTransfer`, `cleanup`):
  - only one connection is held at a time;
  - approval and rejection of a receiver;
  - the pause, resume and cancel buttons;
  - resetting the session.

The app keeps one mutable `state` object for both roles; here it is one
`Session` record. Each handler is a pure function from a session (and the
message or button) to a `Step`: the next session plus the ordered list of
effects. Effects are either messages sent to the peer or host actions: write
bytes at an offset, create a folder, show an error screen, close the
connection, and so on.

Things that come from outside are parameters, not hidden state:

- SHA-256 + base64 digest: the parameter `hash: seq<byte> -> string`, so every property holds for any digest function;
- the bytes of the shared folder: the map `source` from relative path to bytes;
- the folder tree: the datatype `Tree.Entry`;
- whether a write succeeds: the flag `writeOk`;
- whether a folder was picked: the flag `picked`;
- whether a confirmation dialog was accepted: the flag `confirmed`.

Modules, in dependency order:

| file | module | contents |
|---|---|---|
| common.dfy | Common | byte, constants (BLOCK_SIZE, CHUNK_SIZE, MAX_FILES, MANIFEST_VERSION), Option, Result |
| partition.dfy | Partition | ceiling division, the block/chunk ranges of a length, splitting and gluing byte sequences |
| paths.dfy | Paths | `normalizePath`, child-path construction, the "inside folder" relation |
| tree.dfy | Tree | the walk and its ordering guarantees |
| manifest.dfy | Manifest | block hashing, manifest assembly, `indexFolder` |
| protocol.dfy | Protocol | messages, effects, the session record, `files.find` |
| sender.dfy | Sender | `sendBlock`, `handleSenderMessage` |
| receiver.dfy | Receiver | `receiveChunk`, `completeBlock`, `requestNextBlock`, `startReceiving`, `selectTargetFolder`, `handleReceiverMessage` |
| control.dfy | Control | connection guard, approval, pause / resume / cancel, `cleanup` |
| transfer.dfy | Transfer | properties of the two roles together: block round trip, pause behaviour |

### Where the code and its design description differ (the model follows the code)

- **Missing features.** The code has none of the following:
  - a delta planner (the receiver never checks its local files, so every block is fetched);
  - a `receiver_done` message;
  - a post-transfer validation pass;
  - phase-scoped progress counters.
- **Pause is not resumable in general.** A paused sender drops an incoming `request_block` (app.js:878-881) instead of suspending it.
  - The receiver has no case for `pause` or `resume` messages (app.js:1069-1105).
  - So when the pause button is pressed on the sender's side, the request that arrives meanwhile is lost, and the sender's resume only sends `resume`. The transfer stalls. `Transfer.SenderPauseStalls` and `Transfer.RequestDroppedWhilePaused` prove this.
  - A pause pressed at the receiver does not stall, because its own resume calls `requestNextBlock` again. But while a block is in flight that call asks for the same block a second time (`Transfer.ResumeRepeatsRequest`).
- **A block can be counted twice.** `completeBlock` never checks that the block is the one requested or that it is still uncounted (app.js:1244-1289).
  - A second stream of the same block, for example the one a receiver-side resume asks for, raises `completedBlocks` again (`Transfer.DuplicateStreamCountedTwice`).
  - From then on the count runs ahead of the blocks written, so `requestNextBlock` can skip a file's last block or complete the transfer early.
- **A hole in the chunks stops the block silently.** With an unset slot below the array's length, `completeBlock` throws while concatenating (`offset += chunk.byteLength` on the unset slot).
  - Nothing is sent or shown and the block never completes.
  - `Receiver.CompleteBlock` models this as "no effect" whenever `Receiver.Reassemblable` fails.
  - Missing trailing chunks are different: the slot array is just shorter, it concatenates, and the shorter buffer's digest is compared, so a mismatch is reported (`Transfer.MissingTailAssembles`).
- **Hash mismatches change nothing on the sender.** The receiver sends `hash_mismatch` and shows an error, but the sender has no case for it (the default branch only logs).
  - The slot record is not discarded on a mismatch.
- **Chunks for unknown files are stored.** A `block_chunk` for a file with no progress entry creates one with `totalBlocks` 0 (app.js:1217-1223).
- **Cancel does not reset the session.** It sends `cancel`, closes the connection and shows the error screen, but the session's fields are only reset later by `cleanup`.

## Model

| member | source | states |
|---|---|---|
| Partition.CeilDiv | app.js:606 | `Math.ceil(size / BLOCK_SIZE)` is the least count of blocks whose total capacity covers the size |
| Partition.PieceStartsInside | app.js:611-612 | every block index below the block count starts inside the file, and only the last block may be short |
| Partition.RangesPartition | app.js:604-628 | the [start, end) ranges of the hashing loop: one per block, each non-empty and at most BLOCK_SIZE, starting at 0, ending at the size, contiguous and non-overlapping; no ranges for an empty file |
| Partition.RangesCover | app.js:604-628 | every byte offset of the file lies in exactly one block range |
| Partition.Piece | app.js:925-927 | the slice `[i*k, min(i*k+k, n))` of a valid index is non-empty and at most k long |
| Partition.Split | app.js:909-927 | a buffer is cut into ceil(n/k) pieces, each 1..k bytes |
| Partition.Concat | app.js:1250-1257 | the glued buffer is as long as the parts together, and part i sits at the offset where the parts before it end |
| Partition.PlacedAfter | app.js:1254-1257 | appending one more part keeps the earlier parts where they were and puts the new one at the end |
| Partition.ConcatSplitPrefix | app.js:910-946 | gluing the first i slices gives back the first min(i*k, n) bytes |
| Partition.ConcatSplit | app.js:910-946 | slicing a buffer into chunks and gluing them in index order gives back the buffer; there are ceil(n/k) chunks, each 1..k bytes |
| Partition.PieceIsRangeSlice | app.js:611-613 | the bytes hashed for block i are exactly the bytes of the i-th range |
| Paths.Normalize | app.js:84-86 | every '/' becomes '\' and every other character is kept, position by position |
| Paths.NormalizeIdempotent | app.js:84-86 | a normalized path has no '/' and normalizing it again changes nothing |
| Paths.NormalizeNoSlash | app.js:84-86 | a path without '/' is left unchanged |
| Paths.ChildPathJoin | app.js:570 | a child's path is its bare name at the root and `parent + '\' + name` below it, and contains no '/' |
| Paths.ChildBelowParent | app.js:592-593 | a child's path lies strictly inside its parent folder |
| Paths.BelowTransitive | app.js:580-601 | lying inside a folder is transitive |
| Paths.SiblingsDisjoint | app.js:580-601 | two sibling folders with different names share no descendant path |
| Tree.FileIndices | app.js:566-568 | the positions the first loop does not skip: strictly increasing, each holds a file entry, and every file entry's position is among them |
| Tree.FilesAt | app.js:566-586 | record i is the record of the i-th file entry in listing order (path rel\name, size, time), there are exactly as many records as file entries, every file entry is recorded, and each size is the length of the bytes |
| Tree.Walk | app.js:544-602 | a folder's own files come before anything from its subfolders, every subfolder path is recorded, and every size matches its bytes |
| Tree.WalkSubfolders | app.js:588-601 | every subfolder at or after the position is recorded, readable or not, and every size matches its bytes |
| Tree.ScanFolder | app.js:452-458 | an unlistable root gives nothing; otherwise the root's files come first, every top-level folder is recorded under its bare name, and sizes match |
| Tree.WalkComplete | app.js:544-602 | the walk of a readable folder records a file exactly when it lies at some depth beneath the folder (`Tree.AllFiles`), and a folder path exactly when it is a subfolder at some depth, readable or not (`Tree.AllFolders`) |
| Tree.SubfoldersComplete | app.js:588-601 | the second loop from a position on records exactly the subfolders from there on and what lies beneath the readable ones |
| Tree.WalkDistinct | app.js:544-602 | on a well-formed tree the walk never records a file path twice nor a folder path twice |
| Tree.SubfoldersDistinct | app.js:588-601 | the same for the second loop from any position |
| Tree.FilesAtDistinct | app.js:566-586 | in a listing with unique names no two file records share a path |
| Tree.WalkCounts | app.js:544-602 | on a well-formed tree the walk records each file beneath the folder exactly once and each folder exactly once: the record counts equal the sizes of `Tree.AllFiles` and `Tree.AllFolders` |
| Tree.ScanComplete | app.js:650-707 | a scan from the selected root records nothing when the root cannot be listed; otherwise exactly the files and folders at every depth beneath it, and on a well-formed tree each of them once |
| Tree.BackslashNameBreaksFilesFirst | app.js:570 | with a '\' inside a file name, a root file can be recorded before the file of a folder its own folder part lies in |
| Tree.DirOfChild | app.js:570 | the folder part of a child path is the parent path |
| Tree.WalkOrder | app.js:544-602 | the walk of a folder records only paths inside it; no file is recorded after a file of one of its subfolders (files first); no folder is recorded after one of its subfolders (parent before child) |
| Tree.ScanOrder | app.js:650-707 | the walk from the selected root keeps files-first and parent-before-child order, and every recorded folder path is non-empty |
| Manifest.HashFile | app.js:604-628 | one descriptor per block, descriptor i has index i and the digest of the i-th block's bytes |
| Manifest.BuildManifest | app.js:479-526 | version 1, the walk's folders, one entry per found file in walk order with its path, size, time and block digests; fileCount is the count and totalSize the sum of sizes |
| Manifest.IndexFolder | app.js:437-542 | fails exactly when the walk found more than MAX_FILES files, carrying that count; otherwise the manifest describes every found file |
| Manifest.BlockLayout | app.js:1303 | a listed block's write offset block*BLOCK_SIZE is the start of its range and lies inside the file; an empty file has no blocks |
| Manifest.BlockDigestCoversRange | app.js:611-615 | a manifest digest is the digest of the file bytes of that block's range |
| Protocol.FindFile | app.js:885 | the position of the first manifest entry with the path, or none when no entry has it |
| Protocol.SentSends | app.js:929-946 | the messages on the wire for a run of sends are those messages, in order |
| Protocol.CountRequestsAppend | app.js:1198-1202 | block requests of consecutive effect runs add up |
| Sender.ReadSlice | app.js:891-906 | the read of [start, end) is that slice when it lies in the file, and is never longer than end - start |
| Sender.ChunkMessages | app.js:910-946 | ceil(n / CHUNK_SIZE) chunk messages for the block, numbered 0.. in order, each carrying the total and 1..CHUNK_SIZE bytes, whose payloads glue back to the block |
| Sender.SendBlock | app.js:877-954 | paused: nothing is sent; unknown file: one "File not found" error; other failures: one error message; otherwise the block's chunks then block_complete; the session never changes |
| Sender.HandleSenderMessage | app.js:795-820 | only hello, pause and resume change the session (timer, pause flag); block data is sent only for a request_block while not paused; each message's effects |
| Receiver.ReceiveChunk | app.js:1214-1242 | the payload lands in slot `chunk` of (file, block), the counters move by one and by the payload size, missing records are created, nothing else changes |
| Receiver.Gapless | app.js:1254-1257 | a definition with no contract of its own, used by `Receiver.Reassemblable` and `Receiver.CompleteBlock`: every slot below the array's length holds a chunk, which is when the concatenation loop does not throw |
| Receiver.Reassemblable | app.js:1245-1266 | a definition with no contract of its own, the guard of `Receiver.CompleteBlock`; it holds when completeBlock reaches its digest comparison: the manifest lists the file and the block, and the block's slot record is gap-free; otherwise it throws and nothing happens |
| Receiver.Assemble | app.js:1250-1257 | the block buffer is as long as the slots together, and slot i is copied at the offset where the earlier slots end |
| Receiver.Slots | app.js:1253-1257 | a gap-free slot record lists its chunks in index order |
| Receiver.SeekUnfinished | app.js:1178-1208 | the search stops at the first unfinished file at or after the start, every skipped file is finished, existing progress entries are kept, new ones start at 0 with the manifest's block count |
| Receiver.RequestNextBlock | app.js:1172-1212 | paused or no manifest: nothing; otherwise exactly one effect, either a request for block completedBlocks of the first unfinished file at or after currentFileIndex, or transfer completion when all are finished; a file seen for the first time gets an entry with no blocks counted, no slots and the manifest's block count |
| Receiver.Commit | app.js:1276-1289 | after a successful write: the write effect first (and the date warning for a file's last block), the block counted and its slots dropped, other files, the byte counter and the pause flag untouched; what follows the write effects, and the next session, are exactly the next-block selection run on the session with the block counted |
| Receiver.CompleteBlock | app.js:1244-1295 | no effect unless the block can be reassembled; digest mismatch: hash_mismatch and an error, state unchanged; match: write the bytes at block*BLOCK_SIZE, then either a write error or the block counted, its slots dropped and the next block selected |
| Receiver.StartReceiving | app.js:1139-1155 | one folder creation per manifest folder in order, then block selection from file 0 with the byte counter reset |
| Receiver.SelectTargetFolder | app.js:1107-1135 | no pick: nothing; with a connection, request the manifest and start transferring; without one, the failure error |
| Receiver.HandleReceiverMessage | app.js:1069-1105 | messages never change the receiver's pause flag; pause, resume and sender-side messages are ignored; acknowledge stops the timer and asks for a folder or shows the rejection; a manifest is stored (a null one starts nothing); a chunk sends nothing; an error is shown |
| Receiver.HandleReceiverDispatch | app.js:1085-1096 | a manifest with data starts receiving on the stored manifest, a chunk is stored by receiveChunk, block_complete runs completeBlock |
| Control.HandleIncomingConnection | app.js:771-779 | with a connection held, a new one is closed and the session is unchanged; otherwise it becomes the connection |
| Control.HandleApproval | app.js:840-868 | the timer is always stopped; accept answers and starts transferring; reject answers, closes and forgets the connection |
| Control.PauseTransfer | app.js:1349-1356 | sets the pause flag and tells the peer |
| Control.ResumeTransfer | app.js:1358-1369 | clears the pause flag, tells the peer, and on the receiver selects the next block |
| Control.CancelTransfer | app.js:1371-1377 | once confirmed: cancel, close, error screen; the session record is unchanged |
| Control.CancelKeepsConnection | app.js:771-779 | cancelling does not forget the connection, so new receivers are still refused until cleanup, and accepted after it |
| Control.Cleanup | app.js:351-378 | every per-session field is reset, the peer is destroyed and the connection closed exactly when present; user name, mode and file index are kept |
| Control.CleanupIdempotent | app.js:351-378 | cleaning twice is cleaning once, with nothing left to close |
| Control.AcceptsAfterCleanup | app.js:771-778 | after cleanup the next incoming connection is accepted |
| Control.AcceptsAfterReject | app.js:859-866 | rejecting the pending receiver frees the slot for the next connection |
| Control.ConnectionKept | app.js:771-776 | while a connection is held, every further attempt is rejected in turn and the session never changes |
| Transfer.HoldsAllAssembles | app.js:1249-1257 | a slot record holding every chunk is gap-free and reassembles to the payloads glued in order |
| Transfer.MissingTailAssembles | app.js:1229-1257 | a slot record holding only the first k chunks is gap-free too and reassembles to those k chunks, so the shorter buffer reaches the digest check |
| Transfer.FedStep | app.js:1234-1238 | one more chunk in the next slot extends the held prefix by one |
| Transfer.FeedChunks | app.js:1214-1242 | the first k messages of any in-order chunk run for a fresh block are held exactly, their bytes counted, nothing sent and nothing else changed |
| Transfer.ChunkStep | app.js:1214-1242 | one more in-order chunk message extends the held prefix by one and sends nothing |
| Transfer.FeedAllChunks | app.js:1214-1257 | all chunks of a block leave a gap-free slot record that reassembles to the block, with the byte counter advanced by its length |
| Transfer.FedAll | app.js:1249-1257 | once every chunk is held the block's slot record is gap-free and reassembles to the block, with the byte counter advanced by its length |
| Transfer.ChunkMessagesRun | app.js:909-937 | the chunk messages of a non-empty block are a non-empty in-order chunk run |
| Transfer.ReadIsPiece | app.js:891-906 | the sender reads exactly the bytes the indexer hashed for that block |
| Transfer.SenderAnswers | app.js:877-946 | a sender able to read the file answers request_block with the block's chunks in order, then block_complete |
| Transfer.ReceiverCompletes | app.js:1214-1295 | a receiver fed a block's chunks and then block_complete writes it, counts it and drops its slots when the digest matches |
| Transfer.CompleteHeld | app.js:1244-1289 | block_complete on a fully held block whose bytes match the manifest digest delivers the block |
| Transfer.DeliverBlock | app.js:1244-1295 | sender and receiver together: the receiver writes exactly the requested block's bytes at block*BLOCK_SIZE, counts the block and drops its slots |
| Transfer.ReceiverPauseFlagKept | app.js:1069-1105 | no run of messages changes the receiver's pause flag |
| Transfer.StartReceivingRequests | app.js:1139-1155 | starting to receive sends at most one block request, none while paused |
| Transfer.CommitRequests | app.js:1276-1289 | a verified, written block is followed by at most one request, none while paused |
| Transfer.CompleteBlockRequests | app.js:1244-1295 | completing a block sends at most one request, none while paused |
| Transfer.ReceiverRequestsAtMostOne | app.js:1172-1212 | each receiver handler call emits at most one block request, none while paused |
| Transfer.PausedReceiverRequestsNothing | app.js:1172-1173 | a paused receiver sends no block request whatever messages arrive |
| Transfer.PausedSenderSendsNoBlocks | app.js:877-881 | until a resume arrives, a paused sender stays paused and sends no chunk or block_complete |
| Transfer.RequestDroppedWhilePaused | app.js:877-881 | a request reaching a paused sender is dropped and a later resume does not bring it back |
| Transfer.SenderPauseStalls | app.js:1358-1369 | a pause pressed at the sender loses the request that arrives meanwhile: the resume sends only `resume`, which the receiver ignores |
| Transfer.ManifestHandshake | app.js:1107-1155 | picking the folder sends request_manifest, the sender answers with its manifest, and the receiver creates every folder in order, then sends exactly one block request or completes (nothing while paused); a fresh receiver asks for block 0 of the first file, and a manifest without files completes at once |
| Transfer.ResumeRepeatsRequest | app.js:1358-1369 | on the receiver, pause then resume while a block is requested sends resume and the same request_block again |
| Transfer.RequestNextBlockRepeats | app.js:1172-1212 | selecting again without progress selects the same block |
| Transfer.DuplicateStreamCountedTwice | app.js:1244-1289 | the same block's chunks and block_complete handled a second time raise completedBlocks by two in all |

## Left out

- User interface: screens, progress bars, scanner logs, themes, the share-code display.
- The PeerJS wiring (app.js:743-769, 981-1067): the host delivers messages in order, so the model has no network.
  - `connectToSender`, `connectToPeer` and the connection-timeout countdown on the receiver are not modelled.
  - Neither are the sender's close and error callbacks.
- Timers. The approval countdown is a flag `timerActive`; expiry is the call `HandleApproval(s, false)`.
- The localStorage manifest cache and the stored user name (app.js:129-171, 403-415). Both are host storage.
- The indexing cancellation flag (`indexingCancelled`, app.js:737-741). It is a user action racing the async walk.
- Errors reading a file while hashing, and the `catch` of `indexFolder`. The file bytes are the parameter `Tree.Entry`, so a read cannot fail partway. Unreadable files and folders in the walk are modelled.
- Speed, ETA and percentages (`updateTransferUI`, `completeTransfer`'s statistics). This is floating-point display only.
- Sender.SendBlock: the check of the pause flag between chunks (app.js:913-923) is not modelled. A block that started streaming is sent whole; the busy-wait only delays it.
- Sender.SendBlock: the browser path's folder-handle navigation and its errors all become the one `READ_FAILED` reason. The Electron "Folder not selected" message is kept.
- Sending on a missing connection in the handlers. It throws in the source, and the model gives such calls no effect (`HandleApproval`, `PauseTransfer`, `ResumeTransfer`, `CancelTransfer`). `SelectTargetFolder` is the exception: its `catch` shows the failure error, and the model emits it.
  - Sender-side sends assume the connection the message arrived on.
  - `RequestNextBlock`'s request likewise assumes the connection.
- Receiver.StartReceiving: a failure while creating a folder (an exception in `createDirectory`) is not modelled. Every folder creation is emitted as an effect.
- Receiver.CompleteBlock: the failure of the write is a parameter (`writeOk`). The modification-date warning is emitted for the last block of a file. The separate failure of the Electron "Target folder not selected" check is folded into `writeOk`.
- `completeTransfer` closing the connection is the single effect `CompleteTransfer`.
- Receiver.HandleReceiverMessage: a `manifest` message is applied only if it is well formed (the model's `Manifest` type). Malformed wire data that would throw in JavaScript is not modelled.
- The order of a listing. The browser path sorts each listing by a case-insensitive name comparison (`localeCompare` with base sensitivity, app.js:645-646). The Electron path keeps `listDir`'s order (app.js:557). The model takes either order as given: the children of a `Tree.Entry` are the listing as the host, or the sort, produced it. The walk keeps that order, and the comparison itself is not modelled.
- Tree.WalkOrder: the ordering is proved only for trees whose names are non-empty, unique per folder and free of both '/' and '\' (`Tree.WellFormed`). POSIX file systems accept '\' in a name, and with one the walk can break files-first, as `Tree.BackslashNameBreaksFilesFirst` shows.
- Tree.ScanOrder: the same restriction to names without '\' applies, for the same reason.
- Tree.WalkCounts: "each file once" is proved only for well-formed trees. With repeated or separator-bearing names two entries can share a path; the walk then records both, and its record count exceeds the number of distinct records.
- Interleaving inside a handler. Each message handler is modelled as one atomic step, and nothing runs during its awaits. In the source, `sendBlock`'s file reads and 10 ms delays (app.js:877-954) and `completeBlock`'s digest and write (app.js:1260, 1278) yield to the event loop. A pause, a cancel with its cleanup, or a second `request_block` can run in between, and those orderings are not modelled.
- Receiver.CompleteBlock: modelled as written, so nothing in the model promises that a block is counted once. A duplicate stream of a block is counted again (`Transfer.DuplicateStreamCountedTwice`); in the source it can also come from a paused `sendBlock` loop resuming while a second `sendBlock` streams the same block. The later effect of the count running ahead (a file's last block never written) is not stated as a lemma.

=== FILE: common.dfy ===
/** Shared vocabulary: bytes, the engine's constants, and failure-carrying wrappers. */
module Common {

  /** An octet of file content. */
  type byte = b: int | 0 <= b < 256

  /** Size of one hashed and transferred block (16 MiB). */
  const BLOCK_SIZE: nat := 16 * 1024 * 1024

  /** Size of one wire chunk of a block (256 KiB). */
  const CHUNK_SIZE: nat := 256 * 1024

  /** Largest number of files a shared folder may contain. */
  const MAX_FILES: nat := 10000

  /** Version stamp written into every manifest. */
  const MANIFEST_VERSION: nat := 1

  datatype Option<+T> = None | Some(value: T)

  datatype Result<+R, +E> = Success(value: R) | Failure(error: E)

  function Min(a: int, b: int): int
  {
    if a <= b then a else b
  }

  function Max(a: int, b: int): int
  {
    if a >= b then a else b
  }
}

=== FILE: control.dfy ===
/**
 * Session control outside the message handlers: the sender's single
 * connection guard (handleIncomingConnection), approval of a receiver
 * (handleApproval), the pause / resume / cancel buttons, and cleanup.
 */
module Control {
  import opened Common
  import opened Protocol
  import Receiver

  /**
   * handleIncomingConnection: the first connection is kept; while one is
   * held, every further one is closed and the session is left as it is.
   */
  function HandleIncomingConnection(s: Session, conn: nat): (r: Step)
    ensures s.connection.Some? ==> r.next == s && r.effects == [RejectIncoming(conn)]
    ensures s.connection.None? ==> r.next.connection == Some(conn) && r.effects == []
    ensures r.next == s.(connection := r.next.connection)
  {
    if s.connection.Some? then Step(s, [RejectIncoming(conn)])
    else Step(s.(connection := Some(conn)), [])
  }

  const REJECTED_REASON: string := "rejected"

  /**
   * handleApproval: the approval timer is always stopped. Accepting answers
   * the receiver and starts the transfer; rejecting answers, closes and
   * forgets the connection. Without a connection the send throws and only
   * the timer is stopped. What a rejection means for the next connection is
   * `AcceptsAfterReject`.
   */
  function HandleApproval(s: Session, accepted: bool): (r: Step)
    ensures !r.next.timerActive
    ensures s.connection.None? ==> r == Step(s.(timerActive := false), [])
    ensures s.connection.Some? && accepted ==>
              && r.next == s.(timerActive := false, transferring := true)
              && r.effects == [Send(Acknowledge(true, None))]
    ensures s.connection.Some? && !accepted ==>
              && r.next == s.(timerActive := false, connection := None)
              && r.effects == [Send(Acknowledge(false, Some(REJECTED_REASON))), CloseConnection]
  {
    var s1 := s.(timerActive := false);
    if s.connection.None? then Step(s1, [])
    else if accepted then Step(s1.(transferring := true), [Send(Acknowledge(true, None))])
    else Step(s1.(connection := None), [Send(Acknowledge(false, Some(REJECTED_REASON))), CloseConnection])
  }

  /**
   * pauseTransfer: set the local flag, then tell the peer (the send throws
   * without a connection). What a sender-side pause does to the transfer is
   * `Transfer.SenderPauseStalls`.
   */
  function PauseTransfer(s: Session): (r: Step)
    ensures r.next == s.(isPaused := true)
    ensures r.effects == if s.connection.Some? then [Send(Pause)] else []
  {
    Step(s.(isPaused := true), if s.connection.Some? then [Send(Pause)] else [])
  }

  /**
   * resumeTransfer: clear the local flag, tell the peer, and on the receiver
   * side select the next block again; `Transfer.ResumeRepeatsRequest` shows
   * that this asks for the in-flight block once more.
   */
  function ResumeTransfer(s: Session): (r: Step)
    ensures !r.next.isPaused
    ensures s.connection.None? ==> r == Step(s.(isPaused := false), [])
    ensures s.connection.Some? ==> |r.effects| >= 1 && r.effects[0] == Send(Resume)
    ensures s.connection.Some? && s.mode != ReceiverMode ==> r == Step(s.(isPaused := false), [Send(Resume)])
    ensures s.connection.Some? && s.mode == ReceiverMode ==>
              var following := Receiver.RequestNextBlock(s.(isPaused := false));
              r == Step(following.next, [Send(Resume)] + following.effects)
  {
    var s1 := s.(isPaused := false);
    if s.connection.None? then Step(s1, [])
    else if s.mode == ReceiverMode then
      var following := Receiver.RequestNextBlock(s1);
      Step(following.next, [Send(Resume)] + following.effects)
    else Step(s1, [Send(Resume)])
  }

  /**
   * cancelTransfer: once confirmed, tell the peer, close the connection and
   * show the error screen. The session record itself is not reset here, so
   * the connection is still refused until cleanup (`CancelKeepsConnection`).
   */
  function CancelTransfer(s: Session, confirmed: bool): (r: Step)
    ensures r.next == s
    ensures confirmed && s.connection.Some? ==>
              r.effects == [Send(Cancel), CloseConnection, ShowError(TransferCancelled)]
    ensures !confirmed || s.connection.None? ==> r.effects == []
  {
    if confirmed && s.connection.Some? then Step(s, [Send(Cancel), CloseConnection, ShowError(TransferCancelled)])
    else Step(s, [])
  }

  /**
   * Cancelling does not forget the connection: until cleanup runs, the
   * sender keeps refusing new receivers, and after cleanup it accepts one.
   */
  lemma CancelKeepsConnection(s: Session, conn: nat)
    requires s.connection.Some?
    ensures HandleIncomingConnection(CancelTransfer(s, true).next, conn) == Step(s, [RejectIncoming(conn)])
    ensures HandleIncomingConnection(Cleanup(CancelTransfer(s, true).next).next, conn).next.connection == Some(conn)
  {
  }

  /** The session after cleanup: no peer, connection, timer, folders, manifests or progress. */
  predicate Clean(s: Session)
  {
    && !s.peerOpen
    && s.connection.None?
    && !s.timerActive
    && s.shareCode.None?
    && !s.folderSelected
    && s.manifest.None?
    && !s.targetSelected
    && s.receivedManifest.None?
    && !s.isPaused
    && !s.transferring
    && s.currentFile.None?
    && s.currentBlock == 0
    && s.bytesTransferred == 0
    && s.fileMap == map[]
  }

  /**
   * cleanup: destroy the peer and close the connection when present, then
   * reset every per-session field. The user name, the mode and
   * currentFileIndex are kept.
   */
  function Cleanup(s: Session): (r: Step)
    ensures Clean(r.next)
    ensures r.next.username == s.username && r.next.mode == s.mode
    ensures r.next.currentFileIndex == s.currentFileIndex
    ensures (DestroyPeer in r.effects) <==> s.peerOpen
    ensures (CloseConnection in r.effects) <==> s.connection.Some?
    ensures |r.effects| <= 2
  {
    var effects := (if s.peerOpen then [DestroyPeer] else []) +
                   (if s.connection.Some? then [CloseConnection] else []);
    Step(Session(s.username, s.mode, false, None, false, None, false, None, false, None,
                 false, false, None, 0, s.currentFileIndex, 0, map[]),
         effects)
  }

  /** Cleaning twice is cleaning once, and the second pass has nothing to close. */
  lemma CleanupIdempotent(s: Session)
    ensures Cleanup(Cleanup(s).next) == Step(Cleanup(s).next, [])
  {
  }

  /** After cleanup the sender accepts the next incoming connection. */
  lemma AcceptsAfterCleanup(s: Session, conn: nat)
    ensures HandleIncomingConnection(Cleanup(s).next, conn).next.connection == Some(conn)
    ensures HandleIncomingConnection(Cleanup(s).next, conn).effects == []
  {
  }

  /** Rejecting the pending receiver frees the slot for the next connection. */
  lemma AcceptsAfterReject(s: Session, conn: nat)
    ensures HandleIncomingConnection(HandleApproval(s, false).next, conn).next.connection == Some(conn)
  {
  }

  /** While a connection is held, any run of further connection attempts leaves it in place. */
  lemma {:induction false} ConnectionKept(s: Session, attempts: seq<nat>)
    requires s.connection.Some?
    ensures Attempts(s, attempts).next == s
    ensures |Attempts(s, attempts).effects| == |attempts|
    ensures forall i :: 0 <= i < |attempts| ==> Attempts(s, attempts).effects[i] == RejectIncoming(attempts[i])
  {
    if |attempts| > 0 {
      ConnectionKept(s, attempts[..|attempts| - 1]);
    }
  }

  /** A run of incoming connection attempts handled in order. */
  function Attempts(s: Session, attempts: seq<nat>): Step
  {
    if |attempts| == 0 then Step(s, [])
    else
      var before := Attempts(s, attempts[..|attempts| - 1]);
      var last := HandleIncomingConnection(before.next, attempts[|attempts| - 1]);
      Step(last.next, before.effects + last.effects)
  }
}

=== FILE: manifest.dfy ===
/**
 * Manifest assembly (indexFolder, hashFilePath / hashFile): every file found
 * by the walk is cut into BLOCK_SIZE blocks, each block is hashed, and the
 * sizes are summed. The digest (SHA-256, base64-encoded) is a parameter
 * `hash`, so every property below holds whatever digest is plugged in.
 */
module Manifest {
  import opened Common
  import opened Partition
  import opened Tree
  import Paths

  datatype BlockDescriptor = BlockDescriptor(index: nat, hash: string)

  datatype FileEntry = FileEntry(path: string, size: nat, modified: int, blocks: seq<BlockDescriptor>)

  datatype Manifest = Manifest(
    version: nat,
    totalSize: nat,
    fileCount: nat,
    folders: seq<string>,
    files: seq<FileEntry>)

  datatype IndexError = TooManyFiles(count: nat)

  /** Sum of the sizes of the files, in order. */
  function SumSizes(files: seq<FileEntry>): nat
  {
    if |files| == 0 then 0 else SumSizes(files[..|files| - 1]) + files[|files| - 1].size
  }

  /** The i-th descriptor carries index i and the digest of the i-th block range of content. */
  predicate BlocksDescribe(blocks: seq<BlockDescriptor>, content: seq<byte>, hash: seq<byte> -> string)
  {
    && |blocks| == CeilDiv(|content|, BLOCK_SIZE)
    && forall i :: 0 <= i < |blocks| ==>
         blocks[i].index == i && blocks[i].hash == hash(Piece(content, BLOCK_SIZE, i))
  }

  /** The invariants every manifest built here keeps. */
  predicate Consistent(m: Manifest)
  {
    && m.fileCount == |m.files|
    && m.totalSize == SumSizes(m.files)
    && forall k :: 0 <= k < |m.files| ==>
         && |m.files[k].blocks| == CeilDiv(m.files[k].size, BLOCK_SIZE)
         && forall i :: 0 <= i < |m.files[k].blocks| ==> m.files[k].blocks[i].index == i
  }

  /** The entry for a found file: same path, size and time, blocks describing its bytes. */
  predicate EntryDescribes(e: FileEntry, f: Found, hash: seq<byte> -> string)
  {
    && e.path == f.path
    && e.size == f.size
    && e.modified == f.modified
    && f.size == |f.content|
    && BlocksDescribe(e.blocks, f.content, hash)
  }

  /** hashFilePath / hashFile: one descriptor per block range, in index order. */
  method HashFile(content: seq<byte>, hash: seq<byte> -> string) returns (blocks: seq<BlockDescriptor>)
    ensures BlocksDescribe(blocks, content, hash)
  {
    var blockCount := CeilDiv(|content|, BLOCK_SIZE);
    blocks := [];
    var i := 0;
    while i < blockCount
      invariant 0 <= i <= blockCount
      invariant |blocks| == i
      invariant forall j :: 0 <= j < i ==>
                  blocks[j].index == j && blocks[j].hash == hash(Piece(content, BLOCK_SIZE, j))
    {
      PieceStartsInside(i, |content|, BLOCK_SIZE);
      var start := i * BLOCK_SIZE;
      var end := Min(start + BLOCK_SIZE, |content|);
      blocks := blocks + [BlockDescriptor(i, hash(content[start..end]))];
      i := i + 1;
    }
  }

  /** The hashing loop of indexFolder over the files the walk found. */
  method BuildManifest(scan: Scan, hash: seq<byte> -> string) returns (m: Manifest)
    requires SizesMatch(scan.files)
    ensures m.version == MANIFEST_VERSION
    ensures m.folders == scan.folders
    ensures |m.files| == |scan.files|
    ensures forall k :: 0 <= k < |m.files| ==> EntryDescribes(m.files[k], scan.files[k], hash)
    ensures Consistent(m)
  {
    var files := scan.files;
    var entries: seq<FileEntry> := [];
    var totalSize := 0;
    var i := 0;
    while i < |files|
      invariant 0 <= i <= |files|
      invariant |entries| == i
      invariant forall k :: 0 <= k < i ==> EntryDescribes(entries[k], files[k], hash)
      invariant totalSize == SumSizes(entries)
    {
      var blocks := HashFile(files[i].content, hash);
      var entry := FileEntry(files[i].path, files[i].size, files[i].modified, blocks);
      assert (entries + [entry])[..i] == entries;
      entries := entries + [entry];
      totalSize := totalSize + files[i].size;
      i := i + 1;
    }
    m := Manifest(MANIFEST_VERSION, totalSize, |files|, scan.folders, entries);
  }

  /**
   * indexFolder: walk the selected folder, refuse more than MAX_FILES files
   * before any hashing, otherwise hash every file in walk order.
   */
  method IndexFolder(root: Entry, hash: seq<byte> -> string) returns (r: Result<Manifest, IndexError>)
    ensures r.Failure? <==> |ScanFolder(root).files| > MAX_FILES
    ensures r.Failure? ==> r.error == TooManyFiles(|ScanFolder(root).files|)
    ensures r.Success? ==>
              && r.value.version == MANIFEST_VERSION
              && r.value.folders == ScanFolder(root).folders
              && |r.value.files| == |ScanFolder(root).files|
              && (forall k :: 0 <= k < |r.value.files| ==> EntryDescribes(r.value.files[k], ScanFolder(root).files[k], hash))
              && Consistent(r.value)
  {
    var scan := ScanFolder(root);
    if |scan.files| > MAX_FILES {
      return Failure(TooManyFiles(|scan.files|));
    }
    var m := BuildManifest(scan, hash);
    return Success(m);
  }

  /**
   * The blocks of a consistent manifest entry cut [0, size) into contiguous
   * ranges of at most BLOCK_SIZE bytes; a block's write offset is the start
   * of its range.
   */
  lemma BlockLayout(e: FileEntry, block: nat)
    requires |e.blocks| == CeilDiv(e.size, BLOCK_SIZE)
    requires block < |e.blocks|
    ensures block * BLOCK_SIZE == Ranges(e.size, BLOCK_SIZE)[block].start
    ensures block * BLOCK_SIZE < e.size
    ensures e.size == 0 ==> |e.blocks| == 0
  {
    RangesPartition(e.size, BLOCK_SIZE);
  }

  /** A block digest of a found file is the digest of the bytes of that block's range. */
  lemma BlockDigestCoversRange(e: FileEntry, f: Found, hash: seq<byte> -> string, i: nat)
    requires EntryDescribes(e, f, hash)
    requires i < |e.blocks|
    ensures Ranges(f.size, BLOCK_SIZE)[i].end <= |f.content|
    ensures e.blocks[i].hash == hash(f.content[Ranges(f.size, BLOCK_SIZE)[i].start .. Ranges(f.size, BLOCK_SIZE)[i].end])
  {
    PieceIsRangeSlice(f.content, BLOCK_SIZE, i);
  }
}

=== FILE: partition.dfy ===
/**
 * Cutting a byte range into fixed-size pieces, and gluing pieces back.
 * The same arithmetic serves two levels: a file is cut into BLOCK_SIZE
 * blocks when it is hashed, and a block is cut into CHUNK_SIZE chunks
 * when it is sent.
 */
module Partition {
  import opened Common

  /** A closed-open byte range [start, end). */
  datatype Range = Range(start: nat, end: nat)

  /** Math.ceil(n / k) for a non-negative n and a positive k: the least r with r * k >= n. */
  function CeilDiv(n: nat, k: nat): (r: nat)
    requires k > 0
    ensures r * k >= n
    ensures r > 0 ==> (r - 1) * k < n
  {
    var m := n + k - 1;
    var q := m / k;
    assert m == q * k + m % k;
    assert (q - 1) * k == q * k - k;
    q
  }

  lemma MulMonotone(a: nat, b: nat, k: nat)
    requires a <= b
    ensures a * k <= b * k
  {
    assert b * k - a * k == (b - a) * k;
  }

  lemma MulSucc(i: nat, k: nat)
    ensures (i + 1) * k == i * k + k
  {
  }

  /** Every piece index below the piece count starts strictly inside [0, n). */
  lemma PieceStartsInside(i: nat, n: nat, k: nat)
    requires k > 0
    requires i < CeilDiv(n, k)
    ensures i * k < n
    ensures i * k + k <= n || i + 1 == CeilDiv(n, k)
  {
    var r := CeilDiv(n, k);
    MulMonotone(i, r - 1, k);
    if i + 1 < r {
      MulMonotone(i + 1, r - 1, k);
      MulSucc(i, k);
    }
  }

  /** The i-th piece of [0, n) cut every k bytes: [i*k, min(i*k + k, n)). */
  function PieceRange(i: nat, n: nat, k: nat): Range
  {
    Range(i * k, Min(i * k + k, n))
  }

  /** All pieces of [0, n), in index order. */
  function Ranges(n: nat, k: nat): seq<Range>
    requires k > 0
  {
    seq(CeilDiv(n, k), (i: int) requires 0 <= i => PieceRange(i, n, k))
  }

  /**
   * The ranges partition [0, n): each one is non-empty and at most k long,
   * the first starts at 0, each ends where the next starts, and the last ends at n.
   */
  lemma {:induction false} RangesPartition(n: nat, k: nat)
    requires k > 0
    ensures |Ranges(n, k)| == CeilDiv(n, k)
    ensures n == 0 <==> |Ranges(n, k)| == 0
    ensures forall i :: 0 <= i < |Ranges(n, k)| ==>
              Ranges(n, k)[i].start < Ranges(n, k)[i].end <= n &&
              Ranges(n, k)[i].end - Ranges(n, k)[i].start <= k
    ensures |Ranges(n, k)| > 0 ==> Ranges(n, k)[0].start == 0
    ensures |Ranges(n, k)| > 0 ==> Ranges(n, k)[|Ranges(n, k)| - 1].end == n
    ensures forall i :: 0 <= i < |Ranges(n, k)| - 1 ==> Ranges(n, k)[i].end == Ranges(n, k)[i + 1].start
    ensures forall i, j :: 0 <= i < j < |Ranges(n, k)| ==> Ranges(n, k)[i].end <= Ranges(n, k)[j].start
  {
    var rs := Ranges(n, k);
    var c := CeilDiv(n, k);
    forall i | 0 <= i < c
      ensures rs[i].start < rs[i].end <= n && rs[i].end - rs[i].start <= k
    {
      PieceStartsInside(i, n, k);
    }
    forall i | 0 <= i && i + 1 < c
      ensures rs[i].end == rs[i + 1].start
    {
      PieceStartsInside(i, n, k);
      MulSucc(i, k);
    }
    forall i, j | 0 <= i < j < c
      ensures rs[i].end <= rs[j].start
    {
      MulMonotone(i + 1, j, k);
      MulSucc(i, k);
    }
    if c > 0 {
      MulSucc(c - 1, k);
    }
  }

  /** Each offset of [0, n) lies in exactly one range. */
  lemma {:induction false} RangesCover(n: nat, k: nat, x: nat)
    requires k > 0
    requires x < n
    ensures exists i :: 0 <= i < |Ranges(n, k)| && Ranges(n, k)[i].start <= x < Ranges(n, k)[i].end
    ensures forall i, j ::
              (0 <= i < |Ranges(n, k)| && 0 <= j < |Ranges(n, k)| &&
               Ranges(n, k)[i].start <= x < Ranges(n, k)[i].end &&
               Ranges(n, k)[j].start <= x < Ranges(n, k)[j].end) ==> i == j
  {
    var rs := Ranges(n, k);
    var i := x / k;
    assert x == i * k + x % k;
    MulSucc(i, k);
    if i >= CeilDiv(n, k) {
      MulMonotone(CeilDiv(n, k), i, k);
      assert false;
    }
    assert rs[i].start <= x < rs[i].end;
    RangesPartition(n, k);
  }

  /** The bytes of data that fall in the i-th piece. */
  function Piece(data: seq<byte>, k: nat, i: nat): (p: seq<byte>)
    requires k > 0
    requires i < CeilDiv(|data|, k)
    ensures 0 < |p| <= k
  {
    PieceStartsInside(i, |data|, k);
    data[i * k .. Min(i * k + k, |data|)]
  }

  /** data cut into its pieces, in index order: ceil(|data| / k) of them, each 1..k bytes. */
  function Split(data: seq<byte>, k: nat): (ps: seq<seq<byte>>)
    requires k > 0
    ensures |ps| == CeilDiv(|data|, k)
    ensures forall i :: 0 <= i < |ps| ==> 0 < |ps[i]| <= k
  {
    seq(CeilDiv(|data|, k), i requires 0 <= i < CeilDiv(|data|, k) => Piece(data, k, i))
  }

  /** The sum of the part lengths. */
  function TotalLength(parts: seq<seq<byte>>): nat
  {
    if |parts| == 0 then 0 else TotalLength(parts[..|parts| - 1]) + |parts[|parts| - 1]|
  }

  /** Part i of a concatenation sits at offset TotalLength(parts[..i]). */
  predicate PlacedAt(r: seq<byte>, parts: seq<seq<byte>>, i: nat)
    requires i < |parts|
  {
    TotalLength(parts[..i]) + |parts[i]| <= |r| &&
    r[TotalLength(parts[..i]) .. TotalLength(parts[..i]) + |parts[i]|] == parts[i]
  }

  /**
   * Pieces glued in index order, each after the previous one (a left fold):
   * the buffer is as long as the parts together, and part i occupies the
   * bytes from the sum of the lengths before it.
   */
  function Concat(parts: seq<seq<byte>>): (r: seq<byte>)
    ensures |r| == TotalLength(parts)
    ensures forall i :: 0 <= i < |parts| ==> PlacedAt(r, parts, i)
  {
    if |parts| == 0 then []
    else
      var init := parts[..|parts| - 1];
      var front := Concat(init);
      PlacedAfter(front, init, parts[|parts| - 1]);
      assert init + [parts[|parts| - 1]] == parts;
      front + parts[|parts| - 1]
  }

  /** Appending the last part keeps the earlier parts in place and puts the last one at the end. */
  lemma PlacedAfter(front: seq<byte>, init: seq<seq<byte>>, last: seq<byte>)
    requires |front| == TotalLength(init)
    requires forall i :: 0 <= i < |init| ==> PlacedAt(front, init, i)
    ensures forall i :: 0 <= i < |init| + 1 ==> PlacedAt(front + last, init + [last], i)
  {
    var parts := init + [last];
    var r := front + last;
    assert parts[..|init|] == init;
    forall i | 0 <= i < |parts|
      ensures PlacedAt(r, parts, i)
    {
      assert init[..i] == parts[..i] by {
        assert parts[..|init|][..i] == parts[..i];
      }
      if i < |init| {
        assert PlacedAt(front, init, i);
        var lo := TotalLength(parts[..i]);
        assert r[lo .. lo + |parts[i]|] == front[lo .. lo + |parts[i]|];
      } else {
        assert r[|front| ..] == last;
      }
    }
  }

  /** Gluing the first i pieces gives back the first min(i*k, |data|) bytes. */
  lemma {:induction false} ConcatSplitPrefix(data: seq<byte>, k: nat, i: nat)
    requires k > 0
    requires i <= CeilDiv(|data|, k)
    ensures Concat(Split(data, k)[..i]) == data[..Min(i * k, |data|)]
  {
    var ps := Split(data, k);
    if i > 0 {
      var j := i - 1;
      ConcatSplitPrefix(data, k, j);
      PieceStartsInside(j, |data|, k);
      MulSucc(j, k);
      var lo := j * k;
      var hi := Min(lo + k, |data|);
      assert Concat(ps[..j]) == data[..lo];
      assert ps[..i][..j] == ps[..j];
      assert ps[j] == data[lo..hi];
      assert Concat(ps[..i]) == Concat(ps[..j]) + ps[j];
      assert data[..lo] + data[lo..hi] == data[..hi];
    }
  }

  /** Round trip: gluing all pieces of data, in index order, gives back data. */
  lemma {:induction false} ConcatSplit(data: seq<byte>, k: nat)
    requires k > 0
    ensures |Split(data, k)| == CeilDiv(|data|, k)
    ensures forall i :: 0 <= i < |Split(data, k)| ==> 0 < |Split(data, k)[i]| <= k
    ensures Concat(Split(data, k)) == data
  {
    var ps := Split(data, k);
    ConcatSplitPrefix(data, k, |ps|);
    assert ps[..|ps|] == ps;
  }

  /** Each piece is exactly the slice of data over the matching range. */
  lemma PieceIsRangeSlice(data: seq<byte>, k: nat, i: nat)
    requires k > 0
    requires i < CeilDiv(|data|, k)
    ensures Ranges(|data|, k)[i].start < Ranges(|data|, k)[i].end <= |data|
    ensures Piece(data, k, i) == data[Ranges(|data|, k)[i].start .. Ranges(|data|, k)[i].end]
  {
    PieceStartsInside(i, |data|, k);
  }
}

=== FILE: paths.dfy ===
/**
 * Relative paths as the engine writes them: components joined by a single
 * backslash, with every forward slash rewritten to a backslash.
 */
module Paths {

  const SEP: char := '\\'

  /** normalizePath: every '/' becomes '\', every other character is kept. */
  function Normalize(p: string): (r: string)
    ensures |r| == |p|
    ensures forall i :: 0 <= i < |p| ==> r[i] == (if p[i] == '/' then SEP else p[i])
  {
    if |p| == 0 then [] else [if p[0] == '/' then SEP else p[0]] + Normalize(p[1..])
  }

  predicate NoSlash(p: string)
  {
    forall i :: 0 <= i < |p| ==> p[i] != '/'
  }

  /** A normalized path has no '/' left, and normalizing it again changes nothing. */
  lemma NormalizeIdempotent(p: string)
    ensures NoSlash(Normalize(p))
    ensures Normalize(Normalize(p)) == Normalize(p)
  {
  }

  /** Normalizing leaves a path without '/' untouched. */
  lemma NormalizeNoSlash(p: string)
    requires NoSlash(p)
    ensures Normalize(p) == p
  {
  }

  /**
   * The path of entry `name` inside the folder at `rel`: the bare name at the
   * root (rel == ""), otherwise the normalized `rel + '\' + name`.
   */
  function ChildPath(rel: string, name: string): string
  {
    if rel == "" then name else Normalize(rel + [SEP] + name)
  }

  /** A component name the ordering proofs accept: non-empty and free of both separators. */
  predicate ValidName(name: string)
  {
    |name| > 0 && NoSlash(name) && forall i :: 0 <= i < |name| ==> name[i] != SEP
  }

  /** For parts without '/', the child path is exactly parent + '\' + name. */
  lemma ChildPathJoin(rel: string, name: string)
    requires NoSlash(rel) && NoSlash(name)
    ensures rel != "" ==> ChildPath(rel, name) == rel + [SEP] + name
    ensures rel == "" ==> ChildPath(rel, name) == name
    ensures NoSlash(ChildPath(rel, name))
    ensures |name| > 0 ==> |ChildPath(rel, name)| > |rel|
  {
    if rel != "" {
      NormalizeNoSlash(rel + [SEP] + name);
    }
  }

  /**
   * x lies strictly inside the folder p: any non-empty path lies inside the
   * root "", otherwise x continues p with a separator.
   */
  predicate StrictlyBelow(x: string, p: string)
  {
    if p == "" then x != "" else |x| > |p| && x[..|p|] == p && x[|p|] == SEP
  }

  predicate AtOrBelow(x: string, p: string)
  {
    x == p || StrictlyBelow(x, p)
  }

  lemma StrictlyBelowLonger(x: string, p: string)
    requires StrictlyBelow(x, p)
    ensures |x| > |p|
  {
  }

  /** Inside is transitive. */
  lemma BelowTransitive(x: string, y: string, z: string)
    requires AtOrBelow(x, y) && AtOrBelow(y, z)
    ensures AtOrBelow(x, z)
    ensures StrictlyBelow(x, y) ==> StrictlyBelow(x, z)
    ensures StrictlyBelow(y, z) ==> StrictlyBelow(x, z)
  {
    if x != y && y != z && z != "" {
      assert x[..|y|][..|z|] == x[..|z|];
    }
  }

  /** A child path lies strictly inside its parent. */
  lemma ChildBelowParent(rel: string, name: string)
    requires NoSlash(rel) && ValidName(name)
    ensures StrictlyBelow(ChildPath(rel, name), rel)
  {
    ChildPathJoin(rel, name);
    if rel != "" {
      assert (rel + [SEP] + name)[..|rel|] == rel;
    }
  }

  /**
   * Two different siblings share no descendant: a path at or below both
   * rel\a and rel\b forces a == b.
   */
  lemma {:induction false} SiblingsDisjoint(rel: string, a: string, b: string, x: string)
    requires NoSlash(rel) && ValidName(a) && ValidName(b)
    requires AtOrBelow(x, ChildPath(rel, a)) && AtOrBelow(x, ChildPath(rel, b))
    ensures a == b
  {
    ChildPathJoin(rel, a);
    ChildPathJoin(rel, b);
    var pa := ChildPath(rel, a);
    var pb := ChildPath(rel, b);
    var base := if rel == "" then 0 else |rel| + 1;
    assert pa == pa[..base] + a;
    assert pb == pb[..base] + b;
    assert x[..|pa|] == pa;
    assert x[..|pb|] == pb;
    if |a| < |b| {
      assert false;
    } else if |b| < |a| {
      assert false;
    } else {
      assert pa == pb;
      assert a == pa[base..] == pb[base..] == b;
    }
  }
}

=== FILE: protocol.dfy ===
/**
 * The vocabulary both roles share: the typed messages on the peer channel,
 * the effects a handler asks its host to perform, and the session record
 * (one per running app, used by whichever role `mode` names).
 */
module Protocol {
  import opened Common
  import opened Manifest

  /** Messages on the peer channel, either direction. */
  datatype Msg =
    | Hello(username: string)
    | Acknowledge(accepted: bool, reason: Option<string>)
    | RequestManifest
    | ManifestData(manifest: Option<Manifest>)
    | RequestBlock(file: string, block: nat)
    | BlockChunk(file: string, block: nat, chunk: nat, total: nat, payload: seq<byte>)
    | BlockComplete(file: string, block: nat)
    | Pause
    | Resume
    | Cancel
    | HashMismatch(file: string, block: nat)
    | Error(message: string)

  /** Why an error screen is shown. */
  datatype Failure =
    | CancelledByReceiver
    | RejectedBySender
    | SenderFailed(message: string)
    | HashMismatchAt(file: string, block: nat)
    | WriteFailed(file: string)
    | TransferCancelled
    | TargetSelectionFailed

  /** What a handler asks the host to do, in order. */
  datatype Effect =
    | Send(msg: Msg)
    | ShowError(failure: Failure)
    | ShowApproval(username: string)
    | AskTargetFolder
    | CreateDir(path: string)
    | WriteAt(path: string, offset: nat, bytes: seq<byte>)
    | DateNotPreserved(path: string)
    | RejectIncoming(conn: nat)
    | CloseConnection
    | DestroyPeer
    | CompleteTransfer

  datatype Mode = NoMode | SenderMode | ReceiverMode

  /** The chunk slots of one block in flight (a sparse array and its counters). */
  datatype PartialBlock = PartialBlock(
    chunks: map<nat, seq<byte>>,
    length: nat,          // the array's length: one past the highest slot ever written
    receivedChunks: nat,
    totalChunks: nat)

  /** The receiver's per-file progress (one fileMap entry). */
  datatype FileProgress = FileProgress(
    blocks: map<nat, PartialBlock>,
    completedBlocks: nat,
    totalBlocks: nat)

  /** The app's session state; host handles are reduced to "present or not". */
  datatype Session = Session(
    username: string,
    mode: Mode,
    peerOpen: bool,
    connection: Option<nat>,
    timerActive: bool,
    shareCode: Option<string>,
    folderSelected: bool,
    manifest: Option<Manifest>,
    targetSelected: bool,
    receivedManifest: Option<Manifest>,
    isPaused: bool,
    transferring: bool,
    currentFile: Option<string>,
    currentBlock: nat,
    currentFileIndex: nat,
    bytesTransferred: nat,
    fileMap: map<string, FileProgress>)

  /** The next session and the effects, in emission order. */
  datatype Step = Step(next: Session, effects: seq<Effect>)

  /** `files.find(f => f.path === path)`: the position of the first entry with that path. */
  function FindFile(files: seq<FileEntry>, path: string): (r: Option<nat>)
    ensures r.Some? ==> r.value < |files| && files[r.value].path == path
    ensures r.Some? ==> forall j :: 0 <= j < r.value ==> files[j].path != path
    ensures r.None? ==> forall j :: 0 <= j < |files| ==> files[j].path != path
  {
    FindFrom(files, path, 0)
  }

  function FindFrom(files: seq<FileEntry>, path: string, from: nat): (r: Option<nat>)
    requires from <= |files|
    ensures r.Some? ==> from <= r.value < |files| && files[r.value].path == path
    ensures r.Some? ==> forall j :: from <= j < r.value ==> files[j].path != path
    ensures r.None? ==> forall j :: from <= j < |files| ==> files[j].path != path
    decreases |files| - from
  {
    if from == |files| then None
    else if files[from].path == path then Some(from)
    else FindFrom(files, path, from + 1)
  }

  /** The messages a sequence of effects sends, in order. */
  function Sent(effects: seq<Effect>): (msgs: seq<Msg>)
  {
    if |effects| == 0 then []
    else (if effects[0].Send? then [effects[0].msg] else []) + Sent(effects[1..])
  }

  /** A Send effect for each message, in order. */
  function Sends(msgs: seq<Msg>): (effects: seq<Effect>)
    ensures |effects| == |msgs|
    ensures forall i :: 0 <= i < |msgs| ==> effects[i] == Send(msgs[i])
  {
    seq(|msgs|, i requires 0 <= i < |msgs| => Send(msgs[i]))
  }

  /** The messages on the wire for a run of Send effects are those messages. */
  lemma {:induction false} SentSends(msgs: seq<Msg>)
    ensures Sent(Sends(msgs)) == msgs
  {
    if |msgs| > 0 {
      assert Sends(msgs)[1..] == Sends(msgs[1..]);
      SentSends(msgs[1..]);
    }
  }

  /** An effect that puts block bytes on the wire (a chunk or a block's end marker). */
  predicate IsBlockData(e: Effect)
  {
    e.Send? && (e.msg.BlockChunk? || e.msg.BlockComplete?)
  }

  /** No block bytes appear in a sequence of effects. */
  predicate NoBlockData(effects: seq<Effect>)
  {
    forall i :: 0 <= i < |effects| ==> !IsBlockData(effects[i])
  }

  /** An effect that asks the sender for a block. */
  predicate IsBlockRequest(e: Effect)
  {
    e.Send? && e.msg.RequestBlock?
  }

  /** How many block requests a sequence of effects sends. */
  function CountRequests(effects: seq<Effect>): nat
  {
    if |effects| == 0 then 0
    else (if IsBlockRequest(effects[0]) then 1 else 0) + CountRequests(effects[1..])
  }

  lemma {:induction false} CountRequestsAppend(a: seq<Effect>, b: seq<Effect>)
    ensures CountRequests(a + b) == CountRequests(a) + CountRequests(b)
  {
    if |a| > 0 {
      assert (a + b)[1..] == a[1..] + b;
      CountRequestsAppend(a[1..], b);
    } else {
      assert a + b == b;
    }
  }

  lemma {:induction false} CountRequestsBound(effects: seq<Effect>)
    ensures CountRequests(effects) <= |effects|
  {
    if |effects| > 0 {
      CountRequestsBound(effects[1..]);
    }
  }

  lemma {:induction false} CountRequestsNone(effects: seq<Effect>)
    requires forall i :: 0 <= i < |effects| ==> !IsBlockRequest(effects[i])
    ensures CountRequests(effects) == 0
  {
    if |effects| > 0 {
      CountRequestsNone(effects[1..]);
    }
  }

  lemma {:induction false} SentAppend(a: seq<Effect>, b: seq<Effect>)
    ensures Sent(a + b) == Sent(a) + Sent(b)
  {
    if |a| > 0 {
      assert (a + b)[1..] == a[1..] + b;
      SentAppend(a[1..], b);
    } else {
      assert a + b == b;
    }
  }
}

=== FILE: receiver.dfy ===
/**
 * The receiver role: message dispatch (handleReceiverMessage), chunk
 * collection (receiveChunk), block reassembly and verification
 * (completeBlock), and the block-selection loop (requestNextBlock).
 * The digest is a parameter `hash`; whether the host's write of a verified
 * block succeeds is a parameter `writeOk`.
 */
module Receiver {
  import opened Common
  import opened Partition
  import opened Manifest
  import opened Protocol

  /** The fileMap entry a chunk for `file` lands in: the existing one, or a fresh one with no blocks. */
  function EntryFor(fm: map<string, FileProgress>, file: string): FileProgress
  {
    if file in fm then fm[file] else FileProgress(map[], 0, 0)
  }

  /** The slot record a chunk for (file, block) lands in: the existing one, or a fresh one sized by `total`. */
  function SlotFor(fm: map<string, FileProgress>, file: string, block: nat, total: nat): PartialBlock
  {
    var entry := EntryFor(fm, file);
    if block in entry.blocks then entry.blocks[block] else PartialBlock(map[], 0, 0, total)
  }

  /**
   * receiveChunk: store the payload in slot `chunk` of (file, block), count
   * it, and add its length to bytesTransferred. Nothing else changes.
   */
  function ReceiveChunk(s: Session, file: string, block: nat, chunk: nat, total: nat, data: seq<byte>): (r: Session)
    ensures file in r.fileMap && block in r.fileMap[file].blocks
    ensures var before := SlotFor(s.fileMap, file, block, total);
            var after := r.fileMap[file].blocks[block];
            && after.chunks == before.chunks[chunk := data]
            && after.receivedChunks == before.receivedChunks + 1
            && after.totalChunks == before.totalChunks
            && after.length == Max(before.length, chunk + 1)
    ensures r.bytesTransferred == s.bytesTransferred + |data|
    ensures r.fileMap[file].completedBlocks == EntryFor(s.fileMap, file).completedBlocks
    ensures r.fileMap[file].totalBlocks == EntryFor(s.fileMap, file).totalBlocks
    ensures r.fileMap[file].blocks.Keys == EntryFor(s.fileMap, file).blocks.Keys + {block}
    ensures forall b :: b in EntryFor(s.fileMap, file).blocks && b != block ==>
              r.fileMap[file].blocks[b] == EntryFor(s.fileMap, file).blocks[b]
    ensures r.fileMap.Keys == s.fileMap.Keys + {file}
    ensures forall p :: p in s.fileMap && p != file ==> r.fileMap[p] == s.fileMap[p]
    ensures r == s.(fileMap := r.fileMap, bytesTransferred := r.bytesTransferred)
  {
    var entry := EntryFor(s.fileMap, file);
    var slot := SlotFor(s.fileMap, file, block, total);
    var slot' := PartialBlock(slot.chunks[chunk := data], Max(slot.length, chunk + 1),
                              slot.receivedChunks + 1, slot.totalChunks);
    s.(fileMap := s.fileMap[file := entry.(blocks := entry.blocks[block := slot'])],
       bytesTransferred := s.bytesTransferred + |data|)
  }

  /** Every slot below the array's length holds a chunk. */
  predicate Gapless(pb: PartialBlock)
  {
    forall i :: 0 <= i < pb.length ==> i in pb.chunks
  }

  /** The slots in index order. */
  function Slots(pb: PartialBlock): (parts: seq<seq<byte>>)
    requires Gapless(pb)
    ensures |parts| == pb.length
    ensures forall i :: 0 <= i < pb.length ==> parts[i] == pb.chunks[i]
  {
    seq(pb.length, i requires 0 <= i < pb.length => pb.chunks[i])
  }

  /**
   * The block buffer: the slots concatenated in index order. It is as long
   * as the slots together, and slot i is copied at the offset where the
   * slots before it end.
   */
  function Assemble(pb: PartialBlock): (r: seq<byte>)
    requires Gapless(pb)
    ensures |r| == TotalLength(Slots(pb))
    ensures forall i :: 0 <= i < pb.length ==> PlacedAt(r, Slots(pb), i)
  {
    Concat(Slots(pb))
  }

  /**
   * completeBlock reaches its digest comparison: the manifest is present, the
   * block has a gap-free slot record, and the manifest lists the file and
   * that block index. Otherwise the source throws and nothing happens.
   */
  predicate Reassemblable(s: Session, file: string, block: nat)
  {
    && s.receivedManifest.Some?
    && file in s.fileMap
    && block in s.fileMap[file].blocks
    && Gapless(s.fileMap[file].blocks[block])
    && FindFile(s.receivedManifest.value.files, file).Some?
    && block < |s.receivedManifest.value.files[FindFile(s.receivedManifest.value.files, file).value].blocks|
  }

  /** The manifest entry completeBlock checks the block against. */
  function InfoFor(s: Session, file: string, block: nat): FileEntry
    requires Reassemblable(s, file, block)
  {
    s.receivedManifest.value.files[FindFile(s.receivedManifest.value.files, file).value]
  }

  function Reassembled(s: Session, file: string, block: nat): seq<byte>
    requires Reassemblable(s, file, block)
  {
    Assemble(s.fileMap[file].blocks[block])
  }

  predicate Unfinished(fp: FileProgress)
  {
    fp.completedBlocks < fp.totalBlocks
  }

  /** Where the search for the next block stopped, and the fileMap with the entries it created. */
  datatype Seek = Seek(index: nat, fileMap: map<string, FileProgress>, found: bool)

  /**
   * The while loop of requestNextBlock: from position i on, create missing
   * fileMap entries and stop at the first file with blocks still to fetch.
   */
  function SeekUnfinished(files: seq<FileEntry>, i: nat, fm: map<string, FileProgress>): (r: Seek)
    ensures i <= r.index
    ensures r.found ==> r.index < |files| && files[r.index].path in r.fileMap &&
                        Unfinished(r.fileMap[files[r.index].path])
    ensures !r.found ==> r.index == Max(i, |files|)
    ensures forall j :: i <= j < r.index && j < |files| ==>
              files[j].path in r.fileMap && !Unfinished(r.fileMap[files[j].path])
    ensures forall p :: p in fm ==> p in r.fileMap && r.fileMap[p] == fm[p]
    ensures forall p :: p in r.fileMap && p !in fm ==>
              && r.fileMap[p].completedBlocks == 0
              && r.fileMap[p].blocks == map[]
              && exists j :: i <= j < |files| && j <= r.index && files[j].path == p &&
                   r.fileMap[p].totalBlocks == |files[j].blocks|
    decreases |files| - i
  {
    if i >= |files| then Seek(i, fm, false)
    else
      var f := files[i];
      var fm1 := if f.path in fm then fm else fm[f.path := FileProgress(map[], 0, |f.blocks|)];
      if Unfinished(fm1[f.path]) then Seek(i, fm1, true)
      else SeekUnfinished(files, i + 1, fm1)
  }

  /**
   * requestNextBlock: unless paused, ask for block `completedBlocks` of the
   * first unfinished file at or after currentFileIndex, or finish the
   * transfer when there is none.
   */
  function RequestNextBlock(s: Session): (r: Step)
    ensures s.isPaused || s.receivedManifest.None? ==> r == Step(s, [])
    ensures !s.isPaused && s.receivedManifest.Some? ==>
              var files := s.receivedManifest.value.files;
              && |r.effects| == 1
              && s.currentFileIndex <= r.next.currentFileIndex
              && (forall j :: s.currentFileIndex <= j < r.next.currentFileIndex && j < |files| ==>
                    files[j].path in r.next.fileMap && !Unfinished(r.next.fileMap[files[j].path]))
              && (forall p :: p in s.fileMap ==> p in r.next.fileMap && r.next.fileMap[p] == s.fileMap[p])
              && (forall p :: p in r.next.fileMap && p !in s.fileMap ==>
                    && r.next.fileMap[p].completedBlocks == 0
                    && r.next.fileMap[p].blocks == map[]
                    && exists j :: s.currentFileIndex <= j < |files| && j <= r.next.currentFileIndex &&
                         files[j].path == p && r.next.fileMap[p].totalBlocks == |files[j].blocks|)
              && (r.effects[0].Send? ==>
                    && r.next.currentFileIndex < |files|
                    && files[r.next.currentFileIndex].path in r.next.fileMap
                    && Unfinished(r.next.fileMap[files[r.next.currentFileIndex].path])
                    && r.next.currentFile == Some(files[r.next.currentFileIndex].path)
                    && r.next.currentBlock == r.next.fileMap[files[r.next.currentFileIndex].path].completedBlocks
                    && r.effects[0] == Send(RequestBlock(files[r.next.currentFileIndex].path, r.next.currentBlock)))
              && (!r.effects[0].Send? ==>
                    r.effects[0] == CompleteTransfer && r.next.currentFileIndex >= |files|)
              && r.next == s.(fileMap := r.next.fileMap, currentFileIndex := r.next.currentFileIndex,
                              currentFile := r.next.currentFile, currentBlock := r.next.currentBlock)
  {
    if s.isPaused || s.receivedManifest.None? then Step(s, [])
    else
      var files := s.receivedManifest.value.files;
      var found := SeekUnfinished(files, s.currentFileIndex, s.fileMap);
      if found.found then
        var path := files[found.index].path;
        var block := found.fileMap[path].completedBlocks;
        Step(s.(fileMap := found.fileMap, currentFileIndex := found.index,
                currentFile := Some(path), currentBlock := block),
             [Send(RequestBlock(path, block))])
      else
        Step(s.(fileMap := found.fileMap, currentFileIndex := found.index), [CompleteTransfer])
  }

  /** The session once a written block is counted and its slots dropped. */
  function Counted(s: Session, file: string, block: nat): Session
    requires file in s.fileMap
  {
    var entry := s.fileMap[file];
    s.(fileMap := s.fileMap[file := entry.(completedBlocks := entry.completedBlocks + 1,
                                           blocks := entry.blocks - {block})])
  }

  /**
   * The success path of completeBlock once the write went through: the block
   * is written at block * BLOCK_SIZE (with the modification-date warning
   * after the last block of a file), counted, its slots dropped, and the
   * next block selected.
   */
  function Commit(s: Session, file: string, block: nat, data: seq<byte>, last: bool): (r: Step)
    requires file in s.fileMap
    ensures var n := if last then 2 else 1;
            && |r.effects| >= n
            && r.effects[n..] == RequestNextBlock(Counted(s, file, block)).effects
            && r.next == RequestNextBlock(Counted(s, file, block)).next
    ensures |r.effects| >= 1 && r.effects[0] == WriteAt(file, block * BLOCK_SIZE, data)
    ensures last ==> |r.effects| >= 2 && r.effects[1] == DateNotPreserved(file)
    ensures file in r.next.fileMap
    ensures r.next.fileMap[file].completedBlocks == s.fileMap[file].completedBlocks + 1
    ensures r.next.fileMap[file].totalBlocks == s.fileMap[file].totalBlocks
    ensures r.next.fileMap[file].blocks == s.fileMap[file].blocks - {block}
    ensures forall p :: p in s.fileMap && p != file ==> p in r.next.fileMap && r.next.fileMap[p] == s.fileMap[p]
    ensures r.next.bytesTransferred == s.bytesTransferred
    ensures r.next.isPaused == s.isPaused
    ensures r.next.receivedManifest == s.receivedManifest
  {
    var s1 := Counted(s, file, block);
    var written := [WriteAt(file, block * BLOCK_SIZE, data)] + (if last then [DateNotPreserved(file)] else []);
    var following := RequestNextBlock(s1);
    assert file in s1.fileMap && following.next.fileMap[file] == s1.fileMap[file];
    assert (written + following.effects)[|written|..] == following.effects;
    Step(following.next, written + following.effects)
  }

  /**
   * completeBlock: reassemble the slots, compare the digest with the
   * manifest's, and on a match write the block at blockIndex * BLOCK_SIZE,
   * count it, drop its slots and select the next block.
   */
  function CompleteBlock(s: Session, file: string, block: nat, hash: seq<byte> -> string, writeOk: bool): (r: Step)
    ensures !Reassemblable(s, file, block) ==> r == Step(s, [])
    ensures Reassemblable(s, file, block) && hash(Reassembled(s, file, block)) != InfoFor(s, file, block).blocks[block].hash ==>
              r == Step(s, [Send(HashMismatch(file, block)), ShowError(HashMismatchAt(file, block))])
    ensures Reassemblable(s, file, block) && hash(Reassembled(s, file, block)) == InfoFor(s, file, block).blocks[block].hash ==>
              && |r.effects| >= 1
              && r.effects[0] == WriteAt(file, block * BLOCK_SIZE, Reassembled(s, file, block))
              && (!writeOk ==> r == Step(s, [r.effects[0], ShowError(WriteFailed(file))]))
              && (writeOk ==>
                    r == Commit(s, file, block, Reassembled(s, file, block),
                                block == |InfoFor(s, file, block).blocks| - 1))
  {
    if !Reassemblable(s, file, block) then Step(s, [])
    else
      var data := Reassembled(s, file, block);
      var info := InfoFor(s, file, block);
      if hash(data) != info.blocks[block].hash then
        Step(s, [Send(HashMismatch(file, block)), ShowError(HashMismatchAt(file, block))])
      else if !writeOk then
        Step(s, [WriteAt(file, block * BLOCK_SIZE, data), ShowError(WriteFailed(file))])
      else
        Commit(s, file, block, data, block == |info.blocks| - 1)
  }

  /** startReceiving: create the manifest's folders, reset the counters, start selecting blocks. */
  function StartReceiving(s: Session): (r: Step)
    requires s.receivedManifest.Some?
    ensures var folders := s.receivedManifest.value.folders;
            && |r.effects| >= |folders|
            && (forall i :: 0 <= i < |folders| ==> r.effects[i] == CreateDir(folders[i]))
            && r.effects[|folders|..] == RequestNextBlock(s.(bytesTransferred := 0, currentFileIndex := 0)).effects
            && r.next == RequestNextBlock(s.(bytesTransferred := 0, currentFileIndex := 0)).next
  {
    var folders := s.receivedManifest.value.folders;
    var dirs := seq(|folders|, i requires 0 <= i < |folders| => CreateDir(folders[i]));
    var first := RequestNextBlock(s.(bytesTransferred := 0, currentFileIndex := 0));
    assert (dirs + first.effects)[|folders|..] == first.effects;
    Step(first.next, dirs + first.effects)
  }

  /** selectTargetFolder: once a folder is picked, ask the sender for its manifest. */
  function SelectTargetFolder(s: Session, picked: bool): (r: Step)
    ensures !picked ==> r == Step(s, [])
    ensures picked && s.connection.Some? ==>
              r == Step(s.(targetSelected := true, transferring := true), [Send(RequestManifest)])
    ensures picked && s.connection.None? ==>
              r == Step(s.(targetSelected := true), [ShowError(TargetSelectionFailed)])
  {
    if !picked then Step(s, [])
    else if s.connection.None? then Step(s.(targetSelected := true), [ShowError(TargetSelectionFailed)])
    else Step(s.(targetSelected := true, transferring := true), [Send(RequestManifest)])
  }

  /**
   * handleReceiverMessage: what the receiver does with each message from the
   * sender. Its own pause flag is never changed by a message: pause, resume
   * and every other message it has no case for are ignored.
   */
  function HandleReceiverMessage(s: Session, m: Msg, hash: seq<byte> -> string, writeOk: bool): (r: Step)
    ensures r.next.isPaused == s.isPaused
    ensures m.Pause? || m.Resume? || m.Hello? || m.RequestManifest? || m.RequestBlock? || m.Cancel? || m.HashMismatch? ==>
              r == Step(s, [])
    ensures m.Acknowledge? ==>
              && r.next == s.(timerActive := false)
              && r.effects == if m.accepted then [AskTargetFolder] else [ShowError(RejectedBySender)]
    ensures m.ManifestData? ==> r.next.receivedManifest == m.manifest
    ensures m.ManifestData? && m.manifest.None? ==> r.effects == []
    ensures m.BlockChunk? ==> r.effects == []
    ensures m.Error? ==> r == Step(s, [ShowError(SenderFailed(m.message))])
  {
    match m
    case Acknowledge(accepted, _) =>
      var s1 := s.(timerActive := false);
      if accepted then Step(s1, [AskTargetFolder]) else Step(s1, [ShowError(RejectedBySender)])
    case ManifestData(data) =>
      var s1 := s.(receivedManifest := data);
      if data.Some? then StartReceiving(s1) else Step(s1, [])
    case BlockChunk(file, block, chunk, total, payload) =>
      Step(ReceiveChunk(s, file, block, chunk, total, payload), [])
    case BlockComplete(file, block) =>
      CompleteBlock(s, file, block, hash, writeOk)
    case Error(message) =>
      Step(s, [ShowError(SenderFailed(message))])
    case _ => Step(s, [])
  }

  /**
   * The three cases of handleReceiverMessage that hand the work on: a
   * manifest with data starts receiving, a chunk is stored by receiveChunk,
   * block_complete runs completeBlock.
   */
  lemma HandleReceiverDispatch(s: Session, m: Msg, hash: seq<byte> -> string, writeOk: bool)
    ensures m.ManifestData? && m.manifest.Some? ==>
              HandleReceiverMessage(s, m, hash, writeOk) == StartReceiving(s.(receivedManifest := m.manifest))
    ensures m.BlockChunk? ==>
              HandleReceiverMessage(s, m, hash, writeOk) ==
              Step(ReceiveChunk(s, m.file, m.block, m.chunk, m.total, m.payload), [])
    ensures m.BlockComplete? ==>
              HandleReceiverMessage(s, m, hash, writeOk) == CompleteBlock(s, m.file, m.block, hash, writeOk)
  {
  }

  /** The receiver handling a run of messages in order. */
  function RunReceiver(s: Session, msgs: seq<Msg>, hash: seq<byte> -> string, writeOk: bool): Step
  {
    if |msgs| == 0 then Step(s, [])
    else
      var before := RunReceiver(s, msgs[..|msgs| - 1], hash, writeOk);
      var last := HandleReceiverMessage(before.next, msgs[|msgs| - 1], hash, writeOk);
      Step(last.next, before.effects + last.effects)
  }
}

=== FILE: sender.dfy ===
/**
 * The sender role: message dispatch (handleSenderMessage) and block
 * streaming (sendBlock). The shared folder's bytes are a parameter
 * `source`, keyed by relative path; a path missing from it stands for a
 * file the host cannot read.
 */
module Sender {
  import opened Common
  import opened Partition
  import opened Manifest
  import opened Protocol

  /** The bytes of [start, end) a read of file content returns: clamped to the file, empty when end <= start. */
  function ReadSlice(content: seq<byte>, start: nat, end: nat): (r: seq<byte>)
    ensures end <= |content| && start <= end ==> r == content[start..end]
    ensures |r| <= if start <= end then end - start else 0
  {
    if end <= start then []
    else content[Min(start, |content|) .. Min(end, |content|)]
  }

  /** The block_chunk messages of one block: chunk i carries the i-th CHUNK_SIZE slice. */
  function ChunkMessages(file: string, block: nat, data: seq<byte>): (msgs: seq<Msg>)
    ensures |msgs| == CeilDiv(|data|, CHUNK_SIZE)
    ensures forall i :: 0 <= i < |msgs| ==>
              && msgs[i].BlockChunk?
              && msgs[i].file == file && msgs[i].block == block
              && msgs[i].chunk == i && msgs[i].total == |msgs|
              && 0 < |msgs[i].payload| <= CHUNK_SIZE
    ensures Concat(Payloads(msgs)) == data
  {
    var pieces := Split(data, CHUNK_SIZE);
    ConcatSplit(data, CHUNK_SIZE);
    var msgs := seq(|pieces|, i requires 0 <= i < |pieces| => BlockChunk(file, block, i, |pieces|, pieces[i]));
    assert Payloads(msgs) == pieces;
    msgs
  }

  /** The chunk payloads of a run of block_chunk messages, in order. */
  function Payloads(msgs: seq<Msg>): (ps: seq<seq<byte>>)
    requires forall i :: 0 <= i < |msgs| ==> msgs[i].BlockChunk?
    ensures |ps| == |msgs|
    ensures forall i :: 0 <= i < |msgs| ==> ps[i] == msgs[i].payload
  {
    seq(|msgs|, i requires 0 <= i < |msgs| => msgs[i].payload)
  }

  const FAILED_PREFIX: string := "Failed to send block: "
  const FOLDER_NOT_SELECTED: string := "Folder not selected. Please re-select the folder to share."
  const READ_FAILED: string := "could not read file"

  /** The error message sendBlock reports instead of the block. */
  function SendFailure(reason: string): Effect
  {
    Send(Error(FAILED_PREFIX + reason))
  }

  /**
   * sendBlock: a paused sender drops the request; otherwise the block's
   * bytes go out as ordered chunks followed by one block_complete, or one
   * error message when the file cannot be located or read.
   */
  function SendBlock(s: Session, source: map<string, seq<byte>>, file: string, block: nat): (r: Step)
    ensures r.next == s
    ensures s.isPaused ==> r.effects == []
    ensures !s.isPaused && s.manifest.Some? && FindFile(s.manifest.value.files, file).Some?
            && s.folderSelected && file in source ==>
              var info := s.manifest.value.files[FindFile(s.manifest.value.files, file).value];
              var data := ReadSlice(source[file], block * BLOCK_SIZE, Min(block * BLOCK_SIZE + BLOCK_SIZE, info.size));
              r.effects == Sends(ChunkMessages(file, block, data)) + [Send(BlockComplete(file, block))]
    ensures !s.isPaused && s.manifest.Some? && FindFile(s.manifest.value.files, file).None? ==>
              r.effects == [SendFailure("File not found: " + file)]
    ensures !s.isPaused && (s.manifest.None? || !s.folderSelected || file !in source) ==>
              |r.effects| == 1 && r.effects[0].Send? && r.effects[0].msg.Error?
  {
    if s.isPaused then Step(s, [])
    else if s.manifest.None? then Step(s, [SendFailure(READ_FAILED)])
    else
      var found := FindFile(s.manifest.value.files, file);
      if found.None? then Step(s, [SendFailure("File not found: " + file)])
      else if !s.folderSelected then Step(s, [SendFailure(FOLDER_NOT_SELECTED)])
      else if file !in source then Step(s, [SendFailure(READ_FAILED)])
      else
        var info := s.manifest.value.files[found.value];
        var start := block * BLOCK_SIZE;
        var data := ReadSlice(source[file], start, Min(start + BLOCK_SIZE, info.size));
        Step(s, Sends(ChunkMessages(file, block, data)) + [Send(BlockComplete(file, block))])
  }

  /**
   * handleSenderMessage: what the sender does with each message from the
   * receiver. Only hello, pause and resume touch the session (the approval
   * timer and the pause flag), and block data leaves only in answer to a
   * request_block received while not paused.
   */
  function HandleSenderMessage(s: Session, m: Msg, source: map<string, seq<byte>>): (r: Step)
    ensures r.next == s.(isPaused := r.next.isPaused, timerActive := r.next.timerActive)
    ensures r.next.isPaused <==> m.Pause? || (s.isPaused && !m.Resume?)
    ensures r.next.timerActive <==> s.timerActive || m.Hello?
    ensures !NoBlockData(r.effects) ==> m.RequestBlock? && !s.isPaused
    ensures m.Hello? ==> r.effects == [ShowApproval(m.username)]
    ensures m.RequestManifest? ==> r.effects == [Send(ManifestData(s.manifest))]
    ensures m.RequestBlock? ==> r.effects == SendBlock(s, source, m.file, m.block).effects
    ensures m.Cancel? ==> r.effects == [ShowError(CancelledByReceiver)]
    ensures !(m.Hello? || m.RequestManifest? || m.RequestBlock? || m.Cancel?) ==> r.effects == []
  {
    match m
    case Hello(username) => Step(s.(timerActive := true), [ShowApproval(username)])
    case RequestManifest => Step(s, [Send(ManifestData(s.manifest))])
    case RequestBlock(file, block) => SendBlock(s, source, file, block)
    case Pause => Step(s.(isPaused := true), [])
    case Resume => Step(s.(isPaused := false), [])
    case Cancel => Step(s, [ShowError(CancelledByReceiver)])
    case _ => Step(s, [])
  }

  /** The sender handling a run of messages in order. */
  function RunSender(s: Session, msgs: seq<Msg>, source: map<string, seq<byte>>): Step
  {
    if |msgs| == 0 then Step(s, [])
    else
      var before := RunSender(s, msgs[..|msgs| - 1], source);
      var last := HandleSenderMessage(before.next, msgs[|msgs| - 1], source);
      Step(last.next, before.effects + last.effects)
  }
}

=== FILE: transfer.dfy ===
/**
 * Properties of the two roles working together: the chunk round trip from
 * sendBlock through receiveChunk and completeBlock, and what pausing does to
 * the request / response loop.
 */
module Transfer {
  import opened Common
  import opened Partition
  import opened Manifest
  import opened Protocol
  import opened Sender
  import opened Receiver
  import Control

  /** After the first k chunks of a block, its slot record holds exactly those payloads. */
  predicate HoldsFirst(pb: PartialBlock, parts: seq<seq<byte>>, k: nat)
  {
    && k <= |parts|
    && pb.length == k
    && pb.receivedChunks == k
    && pb.totalChunks == |parts|
    && (forall i :: i in pb.chunks ==> i < k)
    && (forall i :: 0 <= i < k ==> i in pb.chunks && pb.chunks[i] == parts[i])
  }

  /** A slot record holding every chunk is gap-free and reassembles the payloads in order. */
  lemma HoldsAllAssembles(pb: PartialBlock, parts: seq<seq<byte>>)
    requires HoldsFirst(pb, parts, |parts|)
    ensures Gapless(pb)
    ensures Assemble(pb) == Concat(parts)
  {
    assert Slots(pb) == parts;
  }

  /**
   * A slot record holding only the first k chunks has no hole either: it
   * reassembles to the shorter buffer of those chunks, which completeBlock
   * then compares with the manifest digest.
   */
  lemma MissingTailAssembles(pb: PartialBlock, parts: seq<seq<byte>>, k: nat)
    requires HoldsFirst(pb, parts, k)
    ensures Gapless(pb)
    ensures Assemble(pb) == Concat(parts[..k])
  {
    assert Slots(pb) == parts[..k];
  }

  /**
   * The receiver state after the first k chunks of a block it held no slots
   * for: only that block's slot record and the byte counter differ from s.
   */
  predicate Fed(s: Session, t: Session, file: string, block: nat, parts: seq<seq<byte>>, k: nat)
  {
    && k <= |parts|
    && block !in EntryFor(s.fileMap, file).blocks
    && t == s.(fileMap := t.fileMap, bytesTransferred := t.bytesTransferred)
    && t.bytesTransferred == s.bytesTransferred + TotalLength(parts[..k])
    && HoldsFirst(SlotFor(t.fileMap, file, block, |parts|), parts, k)
    && (k > 0 ==> file in t.fileMap && block in t.fileMap[file].blocks)
    && EntryFor(t.fileMap, file).completedBlocks == EntryFor(s.fileMap, file).completedBlocks
    && EntryFor(t.fileMap, file).totalBlocks == EntryFor(s.fileMap, file).totalBlocks
    && (forall b :: b in EntryFor(s.fileMap, file).blocks ==>
          b in EntryFor(t.fileMap, file).blocks &&
          EntryFor(t.fileMap, file).blocks[b] == EntryFor(s.fileMap, file).blocks[b])
    && (forall p :: p in s.fileMap && p != file ==> p in t.fileMap && t.fileMap[p] == s.fileMap[p])
  }

  /** One more chunk, in slot k, extends the held prefix by one. */
  lemma FedStep(s: Session, t: Session, file: string, block: nat, parts: seq<seq<byte>>, k: nat)
    requires k < |parts|
    requires Fed(s, t, file, block, parts, k)
    ensures Fed(s, ReceiveChunk(t, file, block, k, |parts|, parts[k]), file, block, parts, k + 1)
  {
    var after := ReceiveChunk(t, file, block, k, |parts|, parts[k]);
    assert parts[..k + 1][..k] == parts[..k];
    assert SlotFor(after.fileMap, file, block, |parts|) == after.fileMap[file].blocks[block];
  }

  /** A run of block_chunk messages for one block, numbered 0.. in order, each carrying the run's length. */
  predicate ChunkRun(msgs: seq<Msg>, file: string, block: nat)
  {
    forall i :: 0 <= i < |msgs| ==>
      msgs[i].BlockChunk? && msgs[i].file == file && msgs[i].block == block &&
      msgs[i].chunk == i && msgs[i].total == |msgs|
  }

  /**
   * Feeding the receiver the first k messages of a chunk run for a block it
   * holds no slots for stores exactly those payloads, counts their bytes,
   * sends nothing and changes nothing else.
   */
  lemma {:induction false} FeedChunks(s: Session, msgs: seq<Msg>, file: string, block: nat,
                                      hash: seq<byte> -> string, writeOk: bool, k: nat)
    requires ChunkRun(msgs, file, block)
    requires block !in EntryFor(s.fileMap, file).blocks
    requires k <= |msgs|
    ensures RunReceiver(s, msgs[..k], hash, writeOk).effects == []
    ensures Fed(s, RunReceiver(s, msgs[..k], hash, writeOk).next, file, block, Payloads(msgs), k)
  {
    var parts := Payloads(msgs);
    if k == 0 {
      assert msgs[..0] == [];
      assert parts[..0] == [];
    } else {
      FeedChunks(s, msgs, file, block, hash, writeOk, k - 1);
      ChunkStep(s, msgs, file, block, hash, writeOk, k);
    }
  }

  /** The k-th message of a chunk run is stored by receiveChunk, extends the held prefix by one and sends nothing. */
  lemma ChunkStep(s: Session, msgs: seq<Msg>, file: string, block: nat,
                  hash: seq<byte> -> string, writeOk: bool, k: nat)
    requires ChunkRun(msgs, file, block)
    requires 0 < k <= |msgs|
    requires RunReceiver(s, msgs[..k - 1], hash, writeOk).effects == []
    requires Fed(s, RunReceiver(s, msgs[..k - 1], hash, writeOk).next, file, block, Payloads(msgs), k - 1)
    ensures RunReceiver(s, msgs[..k], hash, writeOk).effects == []
    ensures Fed(s, RunReceiver(s, msgs[..k], hash, writeOk).next, file, block, Payloads(msgs), k)
  {
    assert msgs[..k][..k - 1] == msgs[..k - 1];
    var before := RunReceiver(s, msgs[..k - 1], hash, writeOk);
    var payload := Payloads(msgs)[k - 1];
    assert msgs[k - 1] == BlockChunk(file, block, k - 1, |msgs|, payload);
    var after := ReceiveChunk(before.next, file, block, k - 1, |msgs|, payload);
    assert HandleReceiverMessage(before.next, msgs[k - 1], hash, writeOk) == Step(after, []);
    assert RunReceiver(s, msgs[..k], hash, writeOk) == Step(after, [] + []);
    FedStep(s, before.next, file, block, Payloads(msgs), k - 1);
  }

  /**
   * The receiver went from s to t by collecting the whole of block `block`:
   * its slot record is gap-free and reassembles to data, the byte counter
   * grew by |data|, and nothing else changed.
   */
  predicate HoldsBlock(s: Session, t: Session, file: string, block: nat, data: seq<byte>)
  {
    && t == s.(fileMap := t.fileMap, bytesTransferred := t.bytesTransferred)
    && t.bytesTransferred == s.bytesTransferred + |data|
    && file in t.fileMap && block in t.fileMap[file].blocks
    && Gapless(t.fileMap[file].blocks[block])
    && Assemble(t.fileMap[file].blocks[block]) == data
    && t.fileMap[file].completedBlocks == EntryFor(s.fileMap, file).completedBlocks
    && (forall p :: p in s.fileMap && p != file ==> p in t.fileMap && t.fileMap[p] == s.fileMap[p])
  }

  /** Once every chunk is held, the block is complete in the sense of HoldsBlock. */
  lemma FedAll(s: Session, t: Session, file: string, block: nat, parts: seq<seq<byte>>)
    requires |parts| > 0
    requires Fed(s, t, file, block, parts, |parts|)
    ensures HoldsBlock(s, t, file, block, Concat(parts))
  {
    assert parts[..|parts|] == parts;
    var pb := t.fileMap[file].blocks[block];
    assert SlotFor(t.fileMap, file, block, |parts|) == pb;
    HoldsAllAssembles(pb, parts);
  }

  /** The whole block's chunks leave the receiver holding a gap-free slot record that reassembles to data. */
  lemma FeedAllChunks(s: Session, file: string, block: nat, data: seq<byte>, hash: seq<byte> -> string, writeOk: bool)
    requires block !in EntryFor(s.fileMap, file).blocks
    requires |data| > 0
    ensures RunReceiver(s, ChunkMessages(file, block, data), hash, writeOk).effects == []
    ensures HoldsBlock(s, RunReceiver(s, ChunkMessages(file, block, data), hash, writeOk).next, file, block, data)
  {
    var msgs := ChunkMessages(file, block, data);
    ChunkMessagesRun(file, block, data);
    FeedChunks(s, msgs, file, block, hash, writeOk, |msgs|);
    assert msgs[..|msgs|] == msgs;
    FedAll(s, RunReceiver(s, msgs, hash, writeOk).next, file, block, Payloads(msgs));
  }

  /** The chunk messages of a non-empty block form a non-empty chunk run whose payloads concatenate to it. */
  lemma ChunkMessagesRun(file: string, block: nat, data: seq<byte>)
    requires |data| > 0
    ensures |ChunkMessages(file, block, data)| > 0
    ensures ChunkRun(ChunkMessages(file, block, data), file, block)
  {
    assert CeilDiv(|data|, CHUNK_SIZE) * CHUNK_SIZE >= |data|;
  }

  /** What sendBlock reads for a listed block of a file whose bytes match its manifest entry. */
  lemma ReadIsPiece(content: seq<byte>, size: nat, block: nat)
    requires size == |content|
    requires block < CeilDiv(size, BLOCK_SIZE)
    ensures ReadSlice(content, block * BLOCK_SIZE, Min(block * BLOCK_SIZE + BLOCK_SIZE, size)) ==
            Piece(content, BLOCK_SIZE, block)
  {
    PieceStartsInside(block, size, BLOCK_SIZE);
  }

  /** The messages the sender puts on the wire for one request_block. */
  function Answer(snd: Session, source: map<string, seq<byte>>, file: string, block: nat): seq<Msg>
  {
    Sent(HandleSenderMessage(snd, RequestBlock(file, block), source).effects)
  }

  /**
   * The receiver went from rcv to r by writing data as the given block: the
   * first effect writes the bytes at block * BLOCK_SIZE, the block is counted
   * as done, its slots are gone, the byte counter grew by its length, and the
   * manifest is kept.
   */
  predicate Delivered(rcv: Session, r: Step, file: string, block: nat, data: seq<byte>)
  {
    && |r.effects| >= 1
    && r.effects[0] == WriteAt(file, block * BLOCK_SIZE, data)
    && file in r.next.fileMap
    && r.next.fileMap[file].completedBlocks == EntryFor(rcv.fileMap, file).completedBlocks + 1
    && block !in r.next.fileMap[file].blocks
    && r.next.bytesTransferred == rcv.bytesTransferred + |data|
    && r.next.receivedManifest == rcv.receivedManifest
  }

  /** A sender that can read the file answers a request with the block's chunks, then block_complete. */
  lemma SenderAnswers(snd: Session, source: map<string, seq<byte>>, file: string, block: nat)
    requires !snd.isPaused && snd.folderSelected && snd.manifest.Some?
    requires FindFile(snd.manifest.value.files, file).Some?
    requires file in source
    requires var info := snd.manifest.value.files[FindFile(snd.manifest.value.files, file).value];
             info.size == |source[file]| && block < CeilDiv(info.size, BLOCK_SIZE)
    ensures Answer(snd, source, file, block) ==
            ChunkMessages(file, block, Piece(source[file], BLOCK_SIZE, block)) + [BlockComplete(file, block)]
  {
    var info := snd.manifest.value.files[FindFile(snd.manifest.value.files, file).value];
    ReadIsPiece(source[file], info.size, block);
    var chunks := ChunkMessages(file, block, Piece(source[file], BLOCK_SIZE, block));
    var out := HandleSenderMessage(snd, RequestBlock(file, block), source);
    assert out.effects == Sends(chunks) + [Send(BlockComplete(file, block))];
    SentAppend(Sends(chunks), [Send(BlockComplete(file, block))]);
    SentSends(chunks);
  }

  /**
   * A receiver holding the manifest and no slots for the block, fed a block's
   * chunks and then block_complete, writes the block, counts it and drops
   * its slots when the bytes match the manifest digest.
   */
  lemma ReceiverCompletes(rcv: Session, file: string, block: nat, data: seq<byte>, hash: seq<byte> -> string)
    requires |data| > 0
    requires rcv.receivedManifest.Some?
    requires FindFile(rcv.receivedManifest.value.files, file).Some?
    requires var info := rcv.receivedManifest.value.files[FindFile(rcv.receivedManifest.value.files, file).value];
             block < |info.blocks| && info.blocks[block].hash == hash(data)
    requires block !in EntryFor(rcv.fileMap, file).blocks
    ensures Delivered(rcv, RunReceiver(rcv, ChunkMessages(file, block, data) + [BlockComplete(file, block)], hash, true),
                      file, block, data)
  {
    var chunks := ChunkMessages(file, block, data);
    FeedAllChunks(rcv, file, block, data, hash, true);
    var fed := RunReceiver(rcv, chunks, hash, true);
    CompleteHeld(rcv, fed.next, file, block, data, hash);
    RunReceiverLast(rcv, chunks, BlockComplete(file, block), hash, true);
    assert [] + HandleReceiverMessage(fed.next, BlockComplete(file, block), hash, true).effects ==
           HandleReceiverMessage(fed.next, BlockComplete(file, block), hash, true).effects;
  }

  /** Handling one more message after a run. */
  lemma RunReceiverLast(s: Session, msgs: seq<Msg>, m: Msg, hash: seq<byte> -> string, writeOk: bool)
    ensures var before := RunReceiver(s, msgs, hash, writeOk);
            var last := HandleReceiverMessage(before.next, m, hash, writeOk);
            RunReceiver(s, msgs + [m], hash, writeOk) == Step(last.next, before.effects + last.effects)
  {
    assert (msgs + [m])[..|msgs|] == msgs;
  }

  /** completeBlock on a block whose slots hold bytes matching the manifest digest delivers them. */
  lemma CompleteHeld(rcv: Session, t: Session, file: string, block: nat, data: seq<byte>, hash: seq<byte> -> string)
    requires rcv.receivedManifest.Some?
    requires FindFile(rcv.receivedManifest.value.files, file).Some?
    requires var info := rcv.receivedManifest.value.files[FindFile(rcv.receivedManifest.value.files, file).value];
             block < |info.blocks| && info.blocks[block].hash == hash(data)
    requires HoldsBlock(rcv, t, file, block, data)
    ensures Delivered(rcv, HandleReceiverMessage(t, BlockComplete(file, block), hash, true), file, block, data)
  {
    assert Reassemblable(t, file, block);
    assert Reassembled(t, file, block) == data;
  }

  /**
   * One block end to end: a sender that is not paused answers a request for
   * a listed block of a file whose bytes match the manifest; the receiver,
   * holding the same manifest and no slots for that block, handles the
   * answer in order and writes exactly that block's bytes at
   * block * BLOCK_SIZE, counts the block as done and drops its slots.
   */
  lemma DeliverBlock(snd: Session, rcv: Session, source: map<string, seq<byte>>,
                     file: string, block: nat, hash: seq<byte> -> string)
    requires !snd.isPaused && snd.folderSelected && snd.manifest.Some?
    requires FindFile(snd.manifest.value.files, file).Some?
    requires file in source
    requires var info := snd.manifest.value.files[FindFile(snd.manifest.value.files, file).value];
             info.size == |source[file]| && BlocksDescribe(info.blocks, source[file], hash) && block < |info.blocks|
    requires rcv.receivedManifest == snd.manifest
    requires block !in EntryFor(rcv.fileMap, file).blocks
    ensures Delivered(rcv, RunReceiver(rcv, Answer(snd, source, file, block), hash, true),
                      file, block, Piece(source[file], BLOCK_SIZE, block))
  {
    var files := snd.manifest.value.files;
    var info := files[FindFile(files, file).value];
    var data := Piece(source[file], BLOCK_SIZE, block);
    assert info.blocks[block].hash == hash(data);
    SenderAnswers(snd, source, file, block);
    ReceiverCompletes(rcv, file, block, data, hash);
  }

  /** Any run of messages leaves the receiver's pause flag where it was. */
  lemma {:induction false} ReceiverPauseFlagKept(s: Session, msgs: seq<Msg>, hash: seq<byte> -> string, writeOk: bool)
    ensures RunReceiver(s, msgs, hash, writeOk).next.isPaused == s.isPaused
  {
    if |msgs| > 0 {
      ReceiverPauseFlagKept(s, msgs[..|msgs| - 1], hash, writeOk);
    }
  }

  /** startReceiving sends at most one block request, and none while paused. */
  lemma StartReceivingRequests(s: Session)
    requires s.receivedManifest.Some?
    ensures CountRequests(StartReceiving(s).effects) <= 1
    ensures s.isPaused ==> CountRequests(StartReceiving(s).effects) == 0
  {
    var n := |s.receivedManifest.value.folders|;
    var effects := StartReceiving(s).effects;
    var following := RequestNextBlock(s.(bytesTransferred := 0, currentFileIndex := 0));
    assert effects == effects[..n] + following.effects;
    CountRequestsNone(effects[..n]);
    CountRequestsBound(following.effects);
    CountRequestsAppend(effects[..n], following.effects);
  }

  /** A written block is followed by at most one request, and none while paused. */
  lemma CommitRequests(s: Session, file: string, block: nat, data: seq<byte>, last: bool)
    requires file in s.fileMap
    ensures CountRequests(Commit(s, file, block, data, last).effects) <= 1
    ensures s.isPaused ==> CountRequests(Commit(s, file, block, data, last).effects) == 0
  {
    var entry := s.fileMap[file];
    var s1 := s.(fileMap := s.fileMap[file := entry.(completedBlocks := entry.completedBlocks + 1,
                                                     blocks := entry.blocks - {block})]);
    var written := [WriteAt(file, block * BLOCK_SIZE, data)] + (if last then [DateNotPreserved(file)] else []);
    var following := RequestNextBlock(s1);
    CountRequestsBound(following.effects);
    CountRequestsNone(written);
    CountRequestsAppend(written, following.effects);
  }

  /** completeBlock sends at most one block request, and none while paused. */
  lemma CompleteBlockRequests(s: Session, file: string, block: nat, hash: seq<byte> -> string, writeOk: bool)
    ensures CountRequests(CompleteBlock(s, file, block, hash, writeOk).effects) <= 1
    ensures s.isPaused ==> CountRequests(CompleteBlock(s, file, block, hash, writeOk).effects) == 0
  {
    if Reassemblable(s, file, block) && hash(Reassembled(s, file, block)) == InfoFor(s, file, block).blocks[block].hash && writeOk {
      CommitRequests(s, file, block, Reassembled(s, file, block), block == |InfoFor(s, file, block).blocks| - 1);
    } else {
      CountRequestsNone(CompleteBlock(s, file, block, hash, writeOk).effects);
    }
  }

  /** Each receiver handler sends at most one block request, and none while paused. */
  lemma ReceiverRequestsAtMostOne(s: Session, m: Msg, hash: seq<byte> -> string, writeOk: bool)
    ensures CountRequests(HandleReceiverMessage(s, m, hash, writeOk).effects) <= 1
    ensures s.isPaused ==> CountRequests(HandleReceiverMessage(s, m, hash, writeOk).effects) == 0
  {
    var r := HandleReceiverMessage(s, m, hash, writeOk);
    match m
    case ManifestData(Some(_)) =>
      StartReceivingRequests(s.(receivedManifest := m.manifest));
    case BlockComplete(file, block) =>
      CompleteBlockRequests(s, file, block, hash, writeOk);
    case _ =>
      CountRequestsNone(r.effects);
  }

  /** A paused receiver sends no block request, whatever run of messages arrives. */
  lemma {:induction false} PausedReceiverRequestsNothing(s: Session, msgs: seq<Msg>, hash: seq<byte> -> string, writeOk: bool)
    requires s.isPaused
    ensures CountRequests(RunReceiver(s, msgs, hash, writeOk).effects) == 0
  {
    if |msgs| > 0 {
      var init := msgs[..|msgs| - 1];
      PausedReceiverRequestsNothing(s, init, hash, writeOk);
      ReceiverPauseFlagKept(s, init, hash, writeOk);
      var before := RunReceiver(s, init, hash, writeOk);
      ReceiverRequestsAtMostOne(before.next, msgs[|msgs| - 1], hash, writeOk);
      CountRequestsAppend(before.effects, HandleReceiverMessage(before.next, msgs[|msgs| - 1], hash, writeOk).effects);
    }
  }

  /**
   * A paused sender streams nothing: until a resume arrives it stays paused
   * and no chunk or block_complete leaves it.
   */
  lemma {:induction false} PausedSenderSendsNoBlocks(s: Session, msgs: seq<Msg>, source: map<string, seq<byte>>)
    requires s.isPaused
    requires forall i :: 0 <= i < |msgs| ==> !msgs[i].Resume?
    ensures RunSender(s, msgs, source).next.isPaused
    ensures NoBlockData(RunSender(s, msgs, source).effects)
  {
    if |msgs| > 0 {
      var init := msgs[..|msgs| - 1];
      PausedSenderSendsNoBlocks(s, init, source);
      var before := RunSender(s, init, source);
      var last := HandleSenderMessage(before.next, msgs[|msgs| - 1], source);
      assert NoBlockData(last.effects);
      assert RunSender(s, msgs, source).effects == before.effects + last.effects;
    }
  }

  /**
   * A request_block that reaches a paused sender is dropped, and a later
   * resume does not bring it back: the sender ends unpaused with nothing sent.
   */
  lemma RequestDroppedWhilePaused(s: Session, source: map<string, seq<byte>>, file: string, block: nat)
    requires s.isPaused
    ensures RunSender(s, [RequestBlock(file, block), Resume], source) == Step(s.(isPaused := false), [])
  {
    var msgs := [RequestBlock(file, block), Resume];
    assert msgs[..1] == [RequestBlock(file, block)];
    assert msgs[..1][..0] == [];
    assert RunSender(s, msgs[..1], source) == Step(s, []);
  }

  /**
   * A pause pressed at the sender stalls the transfer: the request that
   * arrives meanwhile is dropped, the sender's own resume only sends a resume
   * message, and the receiver ignores that message, so no block data ever
   * answers the request.
   */
  lemma SenderPauseStalls(snd: Session, rcv: Session, source: map<string, seq<byte>>, file: string, block: nat,
                          hash: seq<byte> -> string, writeOk: bool)
    requires snd.mode == SenderMode && snd.connection.Some?
    ensures var paused := Control.PauseTransfer(snd);
            var dropped := HandleSenderMessage(paused.next, RequestBlock(file, block), source);
            var resumed := Control.ResumeTransfer(dropped.next);
            && paused.effects == [Send(Pause)]
            && dropped.effects == []
            && resumed.effects == [Send(Resume)]
            && !resumed.next.isPaused
            && HandleReceiverMessage(rcv, Pause, hash, writeOk) == Step(rcv, [])
            && HandleReceiverMessage(rcv, Resume, hash, writeOk) == Step(rcv, [])
  {
  }

  /**
   * The manifest handshake: a receiver with a connection picks its target
   * folder and asks for the manifest; the sender answers with its manifest;
   * the receiver creates every folder in order and then sends exactly one
   * block request or completes the transfer (nothing more while paused).
   * A fresh receiver asks for block 0 of the first file, and a manifest with
   * no files completes at once.
   */
  lemma ManifestHandshake(rcv: Session, snd: Session, source: map<string, seq<byte>>,
                          hash: seq<byte> -> string, writeOk: bool)
    requires rcv.connection.Some?
    requires snd.manifest.Some?
    ensures Sent(SelectTargetFolder(rcv, true).effects) == [RequestManifest]
    ensures Sent(HandleSenderMessage(snd, RequestManifest, source).effects) == [ManifestData(snd.manifest)]
    ensures var got := HandleReceiverMessage(SelectTargetFolder(rcv, true).next, ManifestData(snd.manifest), hash, writeOk);
            var folders := snd.manifest.value.folders;
            var files := snd.manifest.value.files;
            && got.next.receivedManifest == snd.manifest
            && got.next.targetSelected && got.next.transferring
            && |got.effects| == |folders| + (if rcv.isPaused then 0 else 1)
            && (forall i :: 0 <= i < |folders| ==> got.effects[i] == CreateDir(folders[i]))
            && (!rcv.isPaused && |files| == 0 ==> got.effects[|folders|] == CompleteTransfer)
            && (!rcv.isPaused && rcv.fileMap == map[] && |files| > 0 && |files[0].blocks| > 0 ==>
                  got.effects[|folders|] == Send(RequestBlock(files[0].path, 0)))
  {
    var sel := SelectTargetFolder(rcv, true);
    assert Sent(sel.effects) == [RequestManifest] by {
      assert sel.effects == [Send(RequestManifest)];
      assert sel.effects[1..] == [];
    }
    var reply := HandleSenderMessage(snd, RequestManifest, source);
    assert Sent(reply.effects) == [ManifestData(snd.manifest)] by {
      assert reply.effects == [Send(ManifestData(snd.manifest))];
      assert reply.effects[1..] == [];
    }
    var s1 := sel.next.(receivedManifest := snd.manifest);
    HandleReceiverDispatch(sel.next, ManifestData(snd.manifest), hash, writeOk);
    var start := s1.(bytesTransferred := 0, currentFileIndex := 0);
    var first := RequestNextBlock(start);
    assert first.next.targetSelected && first.next.transferring;
  }

  /**
   * completeBlock does not check that the block is the one the receiver
   * asked for, nor that it was not counted already: the same block's chunks
   * and block_complete handled a second time count the block again.
   */
  lemma DuplicateStreamCountedTwice(rcv: Session, file: string, block: nat, data: seq<byte>, hash: seq<byte> -> string)
    requires |data| > 0
    requires rcv.receivedManifest.Some?
    requires FindFile(rcv.receivedManifest.value.files, file).Some?
    requires var info := rcv.receivedManifest.value.files[FindFile(rcv.receivedManifest.value.files, file).value];
             block < |info.blocks| && info.blocks[block].hash == hash(data)
    requires block !in EntryFor(rcv.fileMap, file).blocks
    ensures var wire := ChunkMessages(file, block, data) + [BlockComplete(file, block)];
            var once := RunReceiver(rcv, wire, hash, true).next;
            var r := RunReceiver(once, wire, hash, true).next;
            file in r.fileMap && r.fileMap[file].completedBlocks == EntryFor(rcv.fileMap, file).completedBlocks + 2
  {
    var wire := ChunkMessages(file, block, data) + [BlockComplete(file, block)];
    ReceiverCompletes(rcv, file, block, data, hash);
    var once := RunReceiver(rcv, wire, hash, true);
    ReceiverCompletes(once.next, file, block, data, hash);
  }

  /**
   * On the receiver, a pause and resume while a block is requested sends
   * resume and then the same request_block again: requestNextBlock selects
   * from the unchanged completedBlocks.
   */
  lemma ResumeRepeatsRequest(s: Session)
    requires s.mode == ReceiverMode && s.connection.Some?
    requires !s.isPaused && s.receivedManifest.Some?
    requires RequestNextBlock(s).effects[0].Send?
    ensures var paused := Control.PauseTransfer(RequestNextBlock(s).next).next;
            Control.ResumeTransfer(paused).effects == [Send(Resume)] + RequestNextBlock(s).effects
  {
    var t := RequestNextBlock(s).next;
    var paused := Control.PauseTransfer(t).next;
    RequestNextBlockRepeats(s);
    assert paused.(isPaused := false) == t;
  }

  /** Selecting again without any progress selects the same block. */
  lemma RequestNextBlockRepeats(s: Session)
    requires !s.isPaused && s.receivedManifest.Some?
    requires RequestNextBlock(s).effects[0].Send?
    ensures RequestNextBlock(RequestNextBlock(s).next).effects == RequestNextBlock(s).effects
  {
    var t := RequestNextBlock(s).next;
    var files := s.receivedManifest.value.files;
    var again := SeekUnfinished(files, t.currentFileIndex, t.fileMap);
    assert again.index == t.currentFileIndex && again.found;
  }
}

=== FILE: tree.dfy ===
/**
 * The folder walk that precedes hashing (scanDirectoryPath / scanDirectory).
 * A folder is an abstract tree of entries whose order is the listing order
 * the host hands out; at each level the walk records the readable files
 * first and only then descends into the subfolders, recording each
 * subfolder's path before walking into it.
 */
module Tree {
  import opened Common
  import opened Paths

  /** One entry of a folder listing as the host reports it. */
  datatype Entry =
    | File(name: string, modified: int, content: seq<byte>)
    | UnreadableFile(name: string)   // stat / getFile fails: skipped with a warning
    | Dir(name: string, children: seq<Entry>)
    | UnreadableDir(name: string)    // listing fails: recorded as a folder, nothing beneath it
    | Special(name: string)          // neither a file nor a directory: ignored

  /** A file the walk found: relative path, size, modification time, and its bytes. */
  datatype Found = Found(path: string, size: nat, modified: int, content: seq<byte>)

  /** What the walk accumulates: the files array and the folders array. */
  datatype Scan = Scan(files: seq<Found>, folders: seq<string>)

  predicate IsFolder(e: Entry)
  {
    e.Dir? || e.UnreadableDir?
  }

  /** The record the first loop pushes for a readable file entry inside rel. */
  function FoundOf(e: Entry, rel: string): Found
    requires e.File?
  {
    Found(ChildPath(rel, e.name), |e.content|, e.modified, e.content)
  }

  /** Sizes as stat reports them: each found file's size is the length of its bytes. */
  predicate SizesMatch(fs: seq<Found>)
  {
    forall i :: 0 <= i < |fs| ==> fs[i].size == |fs[i].content|
  }

  /** f is the record of some readable file entry of the listing. */
  predicate FromListing(f: Found, listing: seq<Entry>, rel: string)
  {
    exists j :: 0 <= j < |listing| && listing[j].File? && f == FoundOf(listing[j], rel)
  }

  /**
   * The positions of the file entries of a listing, in increasing order:
   * every position listed holds a file entry and every file entry's
   * position is listed.
   */
  function FileIndices(listing: seq<Entry>): (idx: seq<nat>)
    ensures |idx| <= |listing|
    ensures forall i :: 0 <= i < |idx| ==> idx[i] < |listing| && listing[idx[i]].File?
    ensures forall i, j :: 0 <= i < j < |idx| ==> idx[i] < idx[j]
    ensures forall j :: 0 <= j < |listing| && listing[j].File? ==> j in idx
  {
    if |listing| == 0 then []
    else
      var n := |listing| - 1;
      var init := listing[..n];
      var front := FileIndices(init);
      assert forall i :: 0 <= i < |front| ==> listing[front[i]] == init[front[i]];
      assert forall j :: 0 <= j < n ==> listing[j] == init[j];
      if listing[n].File? then front + [n] else front
  }

  /**
   * The first loop of a walk step: the readable files of one listing, in
   * listing order. Record i is the record of the i-th file entry, so every
   * file entry is recorded exactly once and nothing else is; folders,
   * unreadable files and special entries are not.
   */
  function FilesAt(listing: seq<Entry>, rel: string): (r: seq<Found>)
    ensures |r| == |FileIndices(listing)|
    ensures forall i :: 0 <= i < |r| ==> r[i] == FoundOf(listing[FileIndices(listing)[i]], rel)
    ensures |r| <= |listing|
    ensures SizesMatch(r)
    ensures forall i :: 0 <= i < |r| ==> FromListing(r[i], listing, rel)
    ensures forall j :: 0 <= j < |listing| && listing[j].File? ==> FoundOf(listing[j], rel) in r
  {
    if |listing| == 0 then []
    else
      var n := |listing| - 1;
      var init := listing[..n];
      var front := FilesAt(init, rel);
      var r := if listing[n].File? then front + [FoundOf(listing[n], rel)] else front;
      RecordLast(listing, rel, front);
      IndexedRecords(listing, rel, r);
      r
  }

  /** Records that follow the file positions of all but the last entry, extended by the last entry. */
  lemma RecordLast(listing: seq<Entry>, rel: string, front: seq<Found>)
    requires |listing| > 0
    requires |front| == |FileIndices(listing[..|listing| - 1])|
    requires forall i :: 0 <= i < |front| ==>
               front[i] == FoundOf(listing[..|listing| - 1][FileIndices(listing[..|listing| - 1])[i]], rel)
    ensures var n := |listing| - 1;
            var r := if listing[n].File? then front + [FoundOf(listing[n], rel)] else front;
            && |r| == |FileIndices(listing)|
            && forall i :: 0 <= i < |r| ==> r[i] == FoundOf(listing[FileIndices(listing)[i]], rel)
  {
    var n := |listing| - 1;
    var init := listing[..n];
    var idx := FileIndices(init);
    assert forall i :: 0 <= i < |idx| ==> listing[idx[i]] == init[idx[i]];
  }

  /** Records that follow the file positions in order come from the listing and cover all its file entries. */
  lemma IndexedRecords(listing: seq<Entry>, rel: string, r: seq<Found>)
    requires |r| == |FileIndices(listing)|
    requires forall i :: 0 <= i < |r| ==> r[i] == FoundOf(listing[FileIndices(listing)[i]], rel)
    ensures SizesMatch(r)
    ensures forall i :: 0 <= i < |r| ==> FromListing(r[i], listing, rel)
    ensures forall j :: 0 <= j < |listing| && listing[j].File? ==> FoundOf(listing[j], rel) in r
  {
    var idx := FileIndices(listing);
    forall i | 0 <= i < |r|
      ensures FromListing(r[i], listing, rel)
    {
      assert listing[idx[i]].File? && r[i] == FoundOf(listing[idx[i]], rel);
    }
    forall j | 0 <= j < |listing| && listing[j].File?
      ensures FoundOf(listing[j], rel) in r
    {
      var i :| 0 <= i < |idx| && idx[i] == j;
      assert r[i] == FoundOf(listing[j], rel);
    }
  }

  /**
   * Walk the readable folder d whose relative path is rel: its own files come
   * first, every subfolder's path is recorded, and every size matches its bytes.
   */
  function Walk(d: Entry, rel: string): (r: Scan)
    requires d.Dir?
    ensures FilesAt(d.children, rel) <= r.files
    ensures SizesMatch(r.files)
    ensures forall j :: 0 <= j < |d.children| && IsFolder(d.children[j]) ==>
              ChildPath(rel, d.children[j].name) in r.folders
    decreases d, |d.children| + 1
  {
    var sub := WalkSubfolders(d, 0, rel);
    Scan(FilesAt(d.children, rel) + sub.files, sub.folders)
  }

  /**
   * The second loop of a walk step, from listing position `from` on: every
   * subfolder at or after `from` is recorded, readable or not, and every size
   * matches its bytes.
   */
  function WalkSubfolders(d: Entry, from: nat, rel: string): (r: Scan)
    requires d.Dir? && from <= |d.children|
    ensures SizesMatch(r.files)
    ensures forall j :: from <= j < |d.children| && IsFolder(d.children[j]) ==>
              ChildPath(rel, d.children[j].name) in r.folders
    decreases d, |d.children| - from
  {
    if from == |d.children| then Scan([], [])
    else
      var rest := WalkSubfolders(d, from + 1, rel);
      match d.children[from]
      case Dir(name, _) =>
        var p := ChildPath(rel, name);
        var inner := Walk(d.children[from], p);
        Scan(inner.files + rest.files, [p] + inner.folders + rest.folders)
      case UnreadableDir(name) =>
        Scan(rest.files, [ChildPath(rel, name)] + rest.folders)
      case _ => rest
  }

  /**
   * The walk from the selected root, whose own path is "": nothing when the
   * root cannot be listed; otherwise the root's files first under their bare
   * names, every top-level folder recorded, every size matching its bytes.
   */
  function ScanFolder(root: Entry): (r: Scan)
    ensures !root.Dir? ==> r.files == [] && r.folders == []
    ensures SizesMatch(r.files)
    ensures root.Dir? ==> FilesAt(root.children, "") <= r.files
    ensures root.Dir? ==> forall j :: 0 <= j < |root.children| && IsFolder(root.children[j]) ==>
              root.children[j].name in r.folders
  {
    if root.Dir? then Walk(root, "") else Scan([], [])
  }

  /**
   * Every readable file at any depth beneath the readable folder d whose
   * own path is rel, as the record the walk makes of it: the folder's own
   * files, and the files beneath each readable subfolder.
   */
  function AllFiles(d: Entry, rel: string): set<Found>
    requires d.Dir?
    decreases d
  {
    var cs := d.children;
    (set i | 0 <= i < |cs| && cs[i].File? :: FoundOf(cs[i], rel))
    + (set i, f | 0 <= i < |cs| && cs[i].Dir? && f in AllFiles(cs[i], ChildPath(rel, cs[i].name)) :: f)
  }

  /**
   * Every folder at any depth beneath the readable folder d whose own path
   * is rel: each subfolder, readable or not, and the folders beneath each
   * readable one.
   */
  function AllFolders(d: Entry, rel: string): set<string>
    requires d.Dir?
    decreases d
  {
    var cs := d.children;
    (set i | 0 <= i < |cs| && IsFolder(cs[i]) :: ChildPath(rel, cs[i].name))
    + (set i, q | 0 <= i < |cs| && cs[i].Dir? && q in AllFolders(cs[i], ChildPath(rel, cs[i].name)) :: q)
  }

  /** f lies beneath a readable subfolder of d at position `from` or later. */
  predicate FileInLater(f: Found, d: Entry, from: nat, rel: string)
    requires d.Dir?
  {
    exists i :: from <= i < |d.children| && d.children[i].Dir? &&
      f in AllFiles(d.children[i], ChildPath(rel, d.children[i].name))
  }

  /** q is a subfolder of d at position `from` or later, or lies beneath a readable one. */
  predicate FolderInLater(q: string, d: Entry, from: nat, rel: string)
    requires d.Dir?
  {
    exists i :: from <= i < |d.children| && IsFolder(d.children[i]) &&
      (q == ChildPath(rel, d.children[i].name) ||
       (d.children[i].Dir? && q in AllFolders(d.children[i], ChildPath(rel, d.children[i].name))))
  }

  /** The walk of a readable folder records exactly the files and folders beneath it. */
  lemma {:induction false} WalkComplete(d: Entry, rel: string)
    requires d.Dir?
    ensures forall f :: f in Walk(d, rel).files <==> f in AllFiles(d, rel)
    ensures forall q :: q in Walk(d, rel).folders <==> q in AllFolders(d, rel)
    decreases d, |d.children| + 1
  {
    var cs := d.children;
    var local := FilesAt(cs, rel);
    var sub := WalkSubfolders(d, 0, rel);
    SubfoldersComplete(d, 0, rel);
    forall f
      ensures f in Walk(d, rel).files <==> f in AllFiles(d, rel)
    {
      if f in local {
        assert FromListing(f, cs, rel);
      }
      if f in sub.files {
        assert FileInLater(f, d, 0, rel);
      }
      if f in AllFiles(d, rel) && f !in local {
        assert FileInLater(f, d, 0, rel);
      }
    }
    forall q
      ensures q in Walk(d, rel).folders <==> q in AllFolders(d, rel)
    {
      if q in sub.folders {
        assert FolderInLater(q, d, 0, rel);
      }
      if q in AllFolders(d, rel) {
        assert FolderInLater(q, d, 0, rel);
      }
    }
  }

  /** The second loop from position `from` on records exactly what lies in the subfolders there. */
  lemma {:induction false} SubfoldersComplete(d: Entry, from: nat, rel: string)
    requires d.Dir? && from <= |d.children|
    ensures forall f :: f in WalkSubfolders(d, from, rel).files <==> FileInLater(f, d, from, rel)
    ensures forall q :: q in WalkSubfolders(d, from, rel).folders <==> FolderInLater(q, d, from, rel)
    decreases d, |d.children| - from
  {
    if from < |d.children| {
      SubfoldersComplete(d, from + 1, rel);
      LaterStep(d, from, rel);
      var e := d.children[from];
      var rest := WalkSubfolders(d, from + 1, rel);
      var p := ChildPath(rel, e.name);
      if e.Dir? {
        WalkComplete(e, p);
        var inner := Walk(e, p);
        assert WalkSubfolders(d, from, rel) == Scan(inner.files + rest.files, [p] + inner.folders + rest.folders);
      } else if e.UnreadableDir? {
        assert WalkSubfolders(d, from, rel) == Scan(rest.files, [p] + rest.folders);
      } else {
        assert WalkSubfolders(d, from, rel) == rest;
      }
    }
  }

  /** What lies in the subfolders from `from` on: the subfolder at `from`, then the later ones. */
  lemma LaterStep(d: Entry, from: nat, rel: string)
    requires d.Dir? && from < |d.children|
    ensures var e := d.children[from];
            forall f :: FileInLater(f, d, from, rel) <==>
              (e.Dir? && f in AllFiles(e, ChildPath(rel, e.name))) || FileInLater(f, d, from + 1, rel)
    ensures var e := d.children[from];
            forall q :: FolderInLater(q, d, from, rel) <==>
              (IsFolder(e) && q == ChildPath(rel, e.name)) ||
              (e.Dir? && q in AllFolders(e, ChildPath(rel, e.name))) ||
              FolderInLater(q, d, from + 1, rel)
  {
    var e := d.children[from];
    forall f | FileInLater(f, d, from, rel) && !FileInLater(f, d, from + 1, rel)
      ensures e.Dir? && f in AllFiles(e, ChildPath(rel, e.name))
    {
      var i :| from <= i < |d.children| && d.children[i].Dir? &&
        f in AllFiles(d.children[i], ChildPath(rel, d.children[i].name));
      assert i == from;
    }
    forall q | FolderInLater(q, d, from, rel) && !FolderInLater(q, d, from + 1, rel)
      ensures (IsFolder(e) && q == ChildPath(rel, e.name)) ||
              (e.Dir? && q in AllFolders(e, ChildPath(rel, e.name)))
    {
      var i :| from <= i < |d.children| && IsFolder(d.children[i]) &&
        (q == ChildPath(rel, d.children[i].name) ||
         (d.children[i].Dir? && q in AllFolders(d.children[i], ChildPath(rel, d.children[i].name))));
      assert i == from;
    }
  }

  /** A tree as a file system produces it: valid names, unique within each listing. */
  predicate WellFormed(d: Entry)
  {
    match d
    case Dir(_, cs) =>
      && (forall i :: 0 <= i < |cs| ==> ValidName(cs[i].name) && WellFormed(cs[i]))
      && (forall i, j :: 0 <= i < j < |cs| ==> cs[i].name != cs[j].name)
    case _ => true
  }

  /** The folder a path sits in: everything before its last separator ("" when there is none). */
  function DirOf(x: string): string
  {
    if |x| == 0 then "" else if x[|x| - 1] == SEP then x[..|x| - 1] else DirOf(x[..|x| - 1])
  }

  lemma {:induction false} DirOfSuffix(pre: string, s: string)
    requires forall i :: 0 <= i < |s| ==> s[i] != SEP
    ensures DirOf(pre + s) == DirOf(pre)
  {
    if |s| > 0 {
      assert (pre + s)[..|pre + s| - 1] == pre + s[..|s| - 1];
      DirOfSuffix(pre, s[..|s| - 1]);
    } else {
      assert pre + s == pre;
    }
  }

  /** A child path sits directly in its parent folder. */
  lemma DirOfChild(rel: string, name: string)
    requires NoSlash(rel) && ValidName(name)
    ensures DirOf(ChildPath(rel, name)) == rel
  {
    ChildPathJoin(rel, name);
    if rel == "" {
      DirOfSuffix("", name);
      assert "" + name == name;
    } else {
      DirOfSuffix(rel + [SEP], name);
      assert (rel + [SEP])[..|rel|] == rel;
    }
  }

  /** No file sits directly in a folder after a file that sits deeper inside that folder. */
  predicate FilesFirst(fs: seq<Found>)
  {
    forall i, j :: 0 <= i < j < |fs| ==> !StrictlyBelow(DirOf(fs[i].path), DirOf(fs[j].path))
  }

  /** No folder path is recorded after a folder that lies inside it. */
  predicate ParentsFirst(qs: seq<string>)
  {
    forall i, j :: 0 <= i < j < |qs| ==> !StrictlyBelow(qs[i], qs[j])
  }

  /** No two records share a path. */
  predicate DistinctPaths(fs: seq<Found>)
  {
    forall i, j :: 0 <= i < j < |fs| ==> fs[i].path != fs[j].path
  }

  /** No folder path is recorded twice. */
  predicate DistinctFolders(qs: seq<string>)
  {
    forall i, j :: 0 <= i < j < |qs| ==> qs[i] != qs[j]
  }

  lemma DistinctPathsAppend(a: seq<Found>, b: seq<Found>)
    requires DistinctPaths(a) && DistinctPaths(b)
    requires forall i, j :: 0 <= i < |a| && 0 <= j < |b| ==> a[i].path != b[j].path
    ensures DistinctPaths(a + b)
  {
    var ab := a + b;
    forall i, j | 0 <= i < j < |ab|
      ensures ab[i].path != ab[j].path
    {
      if j < |a| {
        assert ab[i] == a[i] && ab[j] == a[j];
      } else if i >= |a| {
        assert ab[i] == b[i - |a|] && ab[j] == b[j - |a|];
      } else {
        assert ab[i] == a[i] && ab[j] == b[j - |a|];
      }
    }
  }

  lemma DistinctFoldersAppend(a: seq<string>, b: seq<string>)
    requires DistinctFolders(a) && DistinctFolders(b)
    requires forall i, j :: 0 <= i < |a| && 0 <= j < |b| ==> a[i] != b[j]
    ensures DistinctFolders(a + b)
  {
    var ab := a + b;
    forall i, j | 0 <= i < j < |ab|
      ensures ab[i] != ab[j]
    {
      if j < |a| {
        assert ab[i] == a[i] && ab[j] == a[j];
      } else if i >= |a| {
        assert ab[i] == b[i - |a|] && ab[j] == b[j - |a|];
      } else {
        assert ab[i] == a[i] && ab[j] == b[j - |a|];
      }
    }
  }

  lemma FilesFirstAppend(a: seq<Found>, b: seq<Found>)
    requires FilesFirst(a) && FilesFirst(b)
    requires forall i, j :: 0 <= i < |a| && 0 <= j < |b| ==> !StrictlyBelow(DirOf(a[i].path), DirOf(b[j].path))
    ensures FilesFirst(a + b)
  {
    var ab := a + b;
    forall i, j | 0 <= i < j < |ab|
      ensures !StrictlyBelow(DirOf(ab[i].path), DirOf(ab[j].path))
    {
      if j < |a| {
        assert ab[i] == a[i] && ab[j] == a[j];
      } else if i >= |a| {
        assert ab[i] == b[i - |a|] && ab[j] == b[j - |a|];
      } else {
        assert ab[i] == a[i] && ab[j] == b[j - |a|];
      }
    }
  }

  lemma ParentsFirstAppend(a: seq<string>, b: seq<string>)
    requires ParentsFirst(a) && ParentsFirst(b)
    requires forall i, j :: 0 <= i < |a| && 0 <= j < |b| ==> !StrictlyBelow(a[i], b[j])
    ensures ParentsFirst(a + b)
  {
    var ab := a + b;
    forall i, j | 0 <= i < j < |ab|
      ensures !StrictlyBelow(ab[i], ab[j])
    {
      if j < |a| {
        assert ab[i] == a[i] && ab[j] == a[j];
      } else if i >= |a| {
        assert ab[i] == b[i - |a|] && ab[j] == b[j - |a|];
      } else {
        assert ab[i] == a[i] && ab[j] == b[j - |a|];
      }
    }
  }

  /** The files of one listing sit directly in rel, under their child paths. */
  lemma FilesAtDirect(listing: seq<Entry>, rel: string)
    requires NoSlash(rel)
    requires forall i :: 0 <= i < |listing| ==> ValidName(listing[i].name)
    ensures forall i :: 0 <= i < |FilesAt(listing, rel)| ==> DirOf(FilesAt(listing, rel)[i].path) == rel
    ensures FilesFirst(FilesAt(listing, rel))
  {
    var fs := FilesAt(listing, rel);
    var idx := FileIndices(listing);
    forall i | 0 <= i < |fs|
      ensures DirOf(fs[i].path) == rel
    {
      DirOfChild(rel, listing[idx[i]].name);
    }
  }

  /** Which subfolder of d, at a position from `from` on, a path lies in. */
  predicate InSubfolder(x: string, d: Entry, from: nat, rel: string)
    requires d.Dir?
  {
    exists m :: from <= m < |d.children| && IsFolder(d.children[m]) &&
      AtOrBelow(x, ChildPath(rel, d.children[m].name))
  }

  /**
   * Everything the walk of folder rel records lies beneath rel; files are
   * recorded before the files of their subfolders, and folders before
   * what lies inside them.
   */
  lemma {:induction false} WalkOrder(d: Entry, rel: string)
    requires d.Dir? && WellFormed(d) && NoSlash(rel)
    ensures forall i :: 0 <= i < |Walk(d, rel).files| ==> AtOrBelow(DirOf(Walk(d, rel).files[i].path), rel)
    ensures forall i :: 0 <= i < |Walk(d, rel).folders| ==> StrictlyBelow(Walk(d, rel).folders[i], rel)
    ensures FilesFirst(Walk(d, rel).files)
    ensures ParentsFirst(Walk(d, rel).folders)
    decreases d, |d.children| + 1
  {
    var local := FilesAt(d.children, rel);
    var sub := WalkSubfolders(d, 0, rel);
    FilesAtDirect(d.children, rel);
    SubfoldersOrder(d, 0, rel);
    forall j | 0 <= j < |sub.files|
      ensures StrictlyBelow(DirOf(sub.files[j].path), rel)
    {
      assert InSubfolder(DirOf(sub.files[j].path), d, 0, rel);
      var m :| 0 <= m < |d.children| && IsFolder(d.children[m]) &&
        AtOrBelow(DirOf(sub.files[j].path), ChildPath(rel, d.children[m].name));
      ChildBelowParent(rel, d.children[m].name);
      BelowTransitive(DirOf(sub.files[j].path), ChildPath(rel, d.children[m].name), rel);
    }
    forall i, j | 0 <= i < |local| && 0 <= j < |sub.files|
      ensures !StrictlyBelow(DirOf(local[i].path), DirOf(sub.files[j].path))
    {
      StrictlyBelowLonger(DirOf(sub.files[j].path), rel);
    }
    FilesFirstAppend(local, sub.files);
    forall i | 0 <= i < |sub.folders|
      ensures StrictlyBelow(sub.folders[i], rel)
    {
      assert InSubfolder(sub.folders[i], d, 0, rel);
      var m :| 0 <= m < |d.children| && IsFolder(d.children[m]) &&
        AtOrBelow(sub.folders[i], ChildPath(rel, d.children[m].name));
      ChildBelowParent(rel, d.children[m].name);
      BelowTransitive(sub.folders[i], ChildPath(rel, d.children[m].name), rel);
    }
  }

  lemma InSubfolderWiden(d: Entry, from: nat, rel: string, x: string)
    requires d.Dir? && from < |d.children|
    requires InSubfolder(x, d, from + 1, rel)
    ensures InSubfolder(x, d, from, rel)
  {
    var m :| from + 1 <= m < |d.children| && IsFolder(d.children[m]) &&
      AtOrBelow(x, ChildPath(rel, d.children[m].name));
    assert from <= m;
  }

  lemma InSubfolderHere(d: Entry, from: nat, rel: string, x: string)
    requires d.Dir? && from < |d.children| && IsFolder(d.children[from])
    requires AtOrBelow(x, ChildPath(rel, d.children[from].name))
    ensures InSubfolder(x, d, from, rel)
  {
  }

  /** Nothing that lies in a later subfolder lies in the subfolder at `from`. */
  lemma LaterDisjoint(d: Entry, from: nat, rel: string, x: string)
    requires d.Dir? && WellFormed(d) && NoSlash(rel)
    requires from < |d.children| && IsFolder(d.children[from])
    requires InSubfolder(x, d, from + 1, rel)
    ensures !AtOrBelow(x, ChildPath(rel, d.children[from].name))
  {
    var cs := d.children;
    var m :| from + 1 <= m < |cs| && IsFolder(cs[m]) && AtOrBelow(x, ChildPath(rel, cs[m].name));
    if AtOrBelow(x, ChildPath(rel, cs[from].name)) {
      SiblingsDisjoint(rel, cs[from].name, cs[m].name, x);
      assert false;
    }
  }

  /** A path in the subfolder at `from` never lies strictly inside a path of a later subfolder. */
  lemma NotBelowLater(d: Entry, from: nat, rel: string, x: string, y: string)
    requires d.Dir? && WellFormed(d) && NoSlash(rel)
    requires from < |d.children| && IsFolder(d.children[from])
    requires AtOrBelow(x, ChildPath(rel, d.children[from].name))
    requires InSubfolder(y, d, from + 1, rel)
    ensures !StrictlyBelow(x, y)
  {
    var cs := d.children;
    var m :| from + 1 <= m < |cs| && IsFolder(cs[m]) && AtOrBelow(y, ChildPath(rel, cs[m].name));
    if StrictlyBelow(x, y) {
      BelowTransitive(x, y, ChildPath(rel, cs[m].name));
      assert InSubfolder(x, d, from + 1, rel);
      LaterDisjoint(d, from, rel, x);
      assert false;
    }
  }

  /** Facts about what a run of the second loop records, from position `from` on. */
  predicate SubfoldersFacts(d: Entry, from: nat, rel: string, r: Scan)
    requires d.Dir?
  {
    && (forall i :: 0 <= i < |r.files| ==> InSubfolder(DirOf(r.files[i].path), d, from, rel))
    && (forall i :: 0 <= i < |r.folders| ==> InSubfolder(r.folders[i], d, from, rel))
    && FilesFirst(r.files)
    && ParentsFirst(r.folders)
  }

  lemma {:induction false} SubfoldersOrder(d: Entry, from: nat, rel: string)
    requires d.Dir? && WellFormed(d) && NoSlash(rel) && from <= |d.children|
    ensures SubfoldersFacts(d, from, rel, WalkSubfolders(d, from, rel))
    decreases d, |d.children| - from
  {
    if from < |d.children| {
      SubfoldersOrder(d, from + 1, rel);
      var e := d.children[from];
      if e.Dir? {
        DirStep(d, from, rel);
      } else if e.UnreadableDir? {
        UnreadableStep(d, from, rel);
      } else {
        SkipStep(d, from, rel);
      }
    }
  }

  /** An unreadable subfolder adds its own path and nothing beneath it. */
  lemma UnreadableStep(d: Entry, from: nat, rel: string)
    requires d.Dir? && WellFormed(d) && NoSlash(rel) && from < |d.children|
    requires d.children[from].UnreadableDir?
    requires SubfoldersFacts(d, from + 1, rel, WalkSubfolders(d, from + 1, rel))
    ensures SubfoldersFacts(d, from, rel, WalkSubfolders(d, from, rel))
  {
    var rest := WalkSubfolders(d, from + 1, rel);
    var p := ChildPath(rel, d.children[from].name);
    assert WalkSubfolders(d, from, rel) == Scan(rest.files, [p] + rest.folders);
    forall i | 0 <= i < |rest.files|
      ensures InSubfolder(DirOf(rest.files[i].path), d, from, rel)
    {
      InSubfolderWiden(d, from, rel, DirOf(rest.files[i].path));
    }
    forall j | 0 <= j < |rest.folders|
      ensures !StrictlyBelow(p, rest.folders[j])
    {
      NotBelowLater(d, from, rel, p, rest.folders[j]);
    }
    ParentsFirstAppend([p], rest.folders);
    var folders := [p] + rest.folders;
    forall i | 0 <= i < |folders|
      ensures InSubfolder(folders[i], d, from, rel)
    {
      if i == 0 {
        InSubfolderHere(d, from, rel, p);
      } else {
        assert folders[i] == rest.folders[i - 1];
        InSubfolderWiden(d, from, rel, folders[i]);
      }
    }
  }

  /** An entry that is not a folder adds nothing to the second loop. */
  lemma SkipStep(d: Entry, from: nat, rel: string)
    requires d.Dir? && from < |d.children|
    requires !IsFolder(d.children[from])
    requires SubfoldersFacts(d, from + 1, rel, WalkSubfolders(d, from + 1, rel))
    ensures SubfoldersFacts(d, from, rel, WalkSubfolders(d, from, rel))
  {
    var rest := WalkSubfolders(d, from + 1, rel);
    assert WalkSubfolders(d, from, rel) == rest;
    forall i | 0 <= i < |rest.files|
      ensures InSubfolder(DirOf(rest.files[i].path), d, from, rel)
    {
      InSubfolderWiden(d, from, rel, DirOf(rest.files[i].path));
    }
    forall i | 0 <= i < |rest.folders|
      ensures InSubfolder(rest.folders[i], d, from, rel)
    {
      InSubfolderWiden(d, from, rel, rest.folders[i]);
    }
  }

  lemma {:induction false} DirStep(d: Entry, from: nat, rel: string)
    requires d.Dir? && WellFormed(d) && NoSlash(rel) && from < |d.children|
    requires d.children[from].Dir?
    requires SubfoldersFacts(d, from + 1, rel, WalkSubfolders(d, from + 1, rel))
    ensures SubfoldersFacts(d, from, rel, WalkSubfolders(d, from, rel))
    decreases d, |d.children| - from, 0
  {
    var rest := WalkSubfolders(d, from + 1, rel);
    var e := d.children[from];
    var p := ChildPath(rel, e.name);
    ChildPathJoin(rel, e.name);
    var inner := Walk(e, p);
    WalkOrder(e, p);
    StepFiles(d, from, rel, inner.files, rest.files);
    StepFolders(d, from, rel, inner.folders, rest.folders);
    assert WalkSubfolders(d, from, rel) == Scan(inner.files + rest.files, [p] + inner.folders + rest.folders);
  }

  /** The files of one subfolder step: the subfolder's own files, then those of later subfolders. */
  lemma StepFiles(d: Entry, from: nat, rel: string, inner: seq<Found>, rest: seq<Found>)
    requires d.Dir? && WellFormed(d) && NoSlash(rel) && from < |d.children|
    requires IsFolder(d.children[from])
    requires forall i :: 0 <= i < |inner| ==> AtOrBelow(DirOf(inner[i].path), ChildPath(rel, d.children[from].name))
    requires FilesFirst(inner)
    requires forall i :: 0 <= i < |rest| ==> InSubfolder(DirOf(rest[i].path), d, from + 1, rel)
    requires FilesFirst(rest)
    ensures FilesFirst(inner + rest)
    ensures forall i :: 0 <= i < |inner + rest| ==> InSubfolder(DirOf((inner + rest)[i].path), d, from, rel)
  {
    forall i, j | 0 <= i < |inner| && 0 <= j < |rest|
      ensures !StrictlyBelow(DirOf(inner[i].path), DirOf(rest[j].path))
    {
      NotBelowLater(d, from, rel, DirOf(inner[i].path), DirOf(rest[j].path));
    }
    FilesFirstAppend(inner, rest);
    var files := inner + rest;
    forall i | 0 <= i < |files|
      ensures InSubfolder(DirOf(files[i].path), d, from, rel)
    {
      if i < |inner| {
        InSubfolderHere(d, from, rel, DirOf(files[i].path));
      } else {
        assert files[i] == rest[i - |inner|];
        InSubfolderWiden(d, from, rel, DirOf(files[i].path));
      }
    }
  }

  /** The folders of one subfolder step: the subfolder, what lies inside it, then later subfolders. */
  lemma StepFolders(d: Entry, from: nat, rel: string, inner: seq<string>, rest: seq<string>)
    requires d.Dir? && WellFormed(d) && NoSlash(rel) && from < |d.children|
    requires IsFolder(d.children[from])
    requires forall i :: 0 <= i < |inner| ==> StrictlyBelow(inner[i], ChildPath(rel, d.children[from].name))
    requires ParentsFirst(inner)
    requires forall i :: 0 <= i < |rest| ==> InSubfolder(rest[i], d, from + 1, rel)
    requires ParentsFirst(rest)
    ensures ParentsFirst([ChildPath(rel, d.children[from].name)] + inner + rest)
    ensures forall i :: 0 <= i < |[ChildPath(rel, d.children[from].name)] + inner + rest| ==>
              InSubfolder(([ChildPath(rel, d.children[from].name)] + inner + rest)[i], d, from, rel)
  {
    var p := ChildPath(rel, d.children[from].name);
    var here := [p] + inner;
    forall i | 0 <= i < |here|
      ensures AtOrBelow(here[i], p)
    {
      if i > 0 {
        assert here[i] == inner[i - 1];
      }
    }
    forall j | 0 <= j < |inner|
      ensures !StrictlyBelow(p, inner[j])
    {
      StrictlyBelowLonger(inner[j], p);
    }
    ParentsFirstAppend([p], inner);
    forall i, j | 0 <= i < |here| && 0 <= j < |rest|
      ensures !StrictlyBelow(here[i], rest[j])
    {
      NotBelowLater(d, from, rel, here[i], rest[j]);
    }
    ParentsFirstAppend(here, rest);
    var folders := here + rest;
    forall i | 0 <= i < |folders|
      ensures InSubfolder(folders[i], d, from, rel)
    {
      if i < |here| {
        InSubfolderHere(d, from, rel, folders[i]);
      } else {
        assert folders[i] == rest[i - |here|];
        InSubfolderWiden(d, from, rel, folders[i]);
      }
    }
  }

  /** The tree-walk order of a whole scan from the selected root. */
  lemma ScanOrder(root: Entry)
    requires WellFormed(root)
    ensures FilesFirst(ScanFolder(root).files)
    ensures ParentsFirst(ScanFolder(root).folders)
    ensures forall i :: 0 <= i < |ScanFolder(root).folders| ==> ScanFolder(root).folders[i] != ""
  {
    if root.Dir? {
      WalkOrder(root, "");
    }
  }

  /** Siblings with different names get different paths. */
  lemma SiblingPathsDiffer(rel: string, a: string, b: string)
    requires NoSlash(rel) && ValidName(a) && ValidName(b) && a != b
    ensures ChildPath(rel, a) != ChildPath(rel, b)
  {
    if ChildPath(rel, a) == ChildPath(rel, b) {
      SiblingsDisjoint(rel, a, b, ChildPath(rel, a));
    }
  }

  /** A path inside one of the subfolders of d lies strictly inside d. */
  lemma InSubfolderBelow(d: Entry, from: nat, rel: string, x: string)
    requires d.Dir? && WellFormed(d) && NoSlash(rel)
    requires InSubfolder(x, d, from, rel)
    ensures StrictlyBelow(x, rel)
  {
    var m :| from <= m < |d.children| && IsFolder(d.children[m]) &&
      AtOrBelow(x, ChildPath(rel, d.children[m].name));
    ChildBelowParent(rel, d.children[m].name);
    BelowTransitive(x, ChildPath(rel, d.children[m].name), rel);
  }

  /** In a listing with unique names, no two file records share a path. */
  lemma FilesAtDistinct(listing: seq<Entry>, rel: string)
    requires NoSlash(rel)
    requires forall i :: 0 <= i < |listing| ==> ValidName(listing[i].name)
    requires forall i, j :: 0 <= i < j < |listing| ==> listing[i].name != listing[j].name
    ensures DistinctPaths(FilesAt(listing, rel))
  {
    var fs := FilesAt(listing, rel);
    var idx := FileIndices(listing);
    forall i, j | 0 <= i < j < |fs|
      ensures fs[i].path != fs[j].path
    {
      SiblingPathsDiffer(rel, listing[idx[i]].name, listing[idx[j]].name);
    }
  }

  /** The walk of a well-formed folder records no path twice, file or folder. */
  lemma {:induction false} WalkDistinct(d: Entry, rel: string)
    requires d.Dir? && WellFormed(d) && NoSlash(rel)
    ensures DistinctPaths(Walk(d, rel).files)
    ensures DistinctFolders(Walk(d, rel).folders)
    decreases d, |d.children| + 1
  {
    var local := FilesAt(d.children, rel);
    var sub := WalkSubfolders(d, 0, rel);
    FilesAtDirect(d.children, rel);
    FilesAtDistinct(d.children, rel);
    SubfoldersOrder(d, 0, rel);
    SubfoldersDistinct(d, 0, rel);
    forall i, j | 0 <= i < |local| && 0 <= j < |sub.files|
      ensures local[i].path != sub.files[j].path
    {
      InSubfolderBelow(d, 0, rel, DirOf(sub.files[j].path));
      StrictlyBelowLonger(DirOf(sub.files[j].path), rel);
    }
    DistinctPathsAppend(local, sub.files);
  }

  lemma {:induction false} SubfoldersDistinct(d: Entry, from: nat, rel: string)
    requires d.Dir? && WellFormed(d) && NoSlash(rel) && from <= |d.children|
    ensures DistinctPaths(WalkSubfolders(d, from, rel).files)
    ensures DistinctFolders(WalkSubfolders(d, from, rel).folders)
    decreases d, |d.children| - from
  {
    if from < |d.children| {
      var e := d.children[from];
      if e.Dir? {
        DistinctDirStep(d, from, rel);
      } else if e.UnreadableDir? {
        DistinctUnreadableStep(d, from, rel);
      } else {
        SubfoldersDistinct(d, from + 1, rel);
        SkipSame(d, from, rel);
      }
    }
  }

  /** A readable subfolder keeps the second loop free of repeated paths. */
  lemma {:induction false} DistinctDirStep(d: Entry, from: nat, rel: string)
    requires d.Dir? && WellFormed(d) && NoSlash(rel) && from < |d.children|
    requires d.children[from].Dir?
    ensures DistinctPaths(WalkSubfolders(d, from, rel).files)
    ensures DistinctFolders(WalkSubfolders(d, from, rel).folders)
    decreases d, |d.children| - from, 0
  {
    SubfoldersDistinct(d, from + 1, rel);
    SubfoldersOrder(d, from + 1, rel);
    var e := d.children[from];
    var rest := WalkSubfolders(d, from + 1, rel);
    var p := ChildPath(rel, e.name);
    ChildPathJoin(rel, e.name);
    var inner := Walk(e, p);
    WalkDistinct(e, p);
    WalkOrder(e, p);
    DistinctFilesStep(d, from, rel, inner.files, rest.files);
    DistinctFoldersStep(d, from, rel, inner.folders, rest.folders);
    assert WalkSubfolders(d, from, rel) == Scan(inner.files + rest.files, [p] + inner.folders + rest.folders);
  }

  /** An entry that is not a folder leaves the second loop's result as it is. */
  lemma SkipSame(d: Entry, from: nat, rel: string)
    requires d.Dir? && from < |d.children| && !IsFolder(d.children[from])
    ensures WalkSubfolders(d, from, rel) == WalkSubfolders(d, from + 1, rel)
  {
  }

  /** An unreadable subfolder's path differs from every later folder path. */
  lemma {:induction false} DistinctUnreadableStep(d: Entry, from: nat, rel: string)
    requires d.Dir? && WellFormed(d) && NoSlash(rel) && from < |d.children|
    requires d.children[from].UnreadableDir?
    ensures DistinctPaths(WalkSubfolders(d, from, rel).files)
    ensures DistinctFolders(WalkSubfolders(d, from, rel).folders)
    decreases d, |d.children| - from, 0
  {
    SubfoldersDistinct(d, from + 1, rel);
    SubfoldersOrder(d, from + 1, rel);
    var rest := WalkSubfolders(d, from + 1, rel);
    var p := ChildPath(rel, d.children[from].name);
    forall j | 0 <= j < |rest.folders|
      ensures p != rest.folders[j]
    {
      LaterDisjoint(d, from, rel, rest.folders[j]);
    }
    DistinctFoldersAppend([p], rest.folders);
    assert WalkSubfolders(d, from, rel) == Scan(rest.files, [p] + rest.folders);
  }

  /** A subfolder's files and those of later subfolders never share a path. */
  lemma DistinctFilesStep(d: Entry, from: nat, rel: string, inner: seq<Found>, rest: seq<Found>)
    requires d.Dir? && WellFormed(d) && NoSlash(rel) && from < |d.children|
    requires IsFolder(d.children[from])
    requires forall i :: 0 <= i < |inner| ==> AtOrBelow(DirOf(inner[i].path), ChildPath(rel, d.children[from].name))
    requires forall i :: 0 <= i < |rest| ==> InSubfolder(DirOf(rest[i].path), d, from + 1, rel)
    requires DistinctPaths(inner) && DistinctPaths(rest)
    ensures DistinctPaths(inner + rest)
  {
    forall i, j | 0 <= i < |inner| && 0 <= j < |rest|
      ensures inner[i].path != rest[j].path
    {
      LaterDisjoint(d, from, rel, DirOf(rest[j].path));
    }
    DistinctPathsAppend(inner, rest);
  }

  /** A subfolder, the folders inside it and those of later subfolders are all different. */
  lemma DistinctFoldersStep(d: Entry, from: nat, rel: string, inner: seq<string>, rest: seq<string>)
    requires d.Dir? && WellFormed(d) && NoSlash(rel) && from < |d.children|
    requires IsFolder(d.children[from])
    requires forall i :: 0 <= i < |inner| ==> StrictlyBelow(inner[i], ChildPath(rel, d.children[from].name))
    requires forall i :: 0 <= i < |rest| ==> InSubfolder(rest[i], d, from + 1, rel)
    requires DistinctFolders(inner) && DistinctFolders(rest)
    ensures DistinctFolders([ChildPath(rel, d.children[from].name)] + inner + rest)
  {
    var p := ChildPath(rel, d.children[from].name);
    forall j | 0 <= j < |inner|
      ensures p != inner[j]
    {
      StrictlyBelowLonger(inner[j], p);
    }
    DistinctFoldersAppend([p], inner);
    var here := [p] + inner;
    forall i, j | 0 <= i < |here| && 0 <= j < |rest|
      ensures here[i] != rest[j]
    {
      LaterDisjoint(d, from, rel, rest[j]);
      if i > 0 {
        assert here[i] == inner[i - 1];
      }
    }
    DistinctFoldersAppend(here, rest);
  }

  /** A sequence without repeats has as many distinct elements as it is long. */
  lemma {:induction false} DistinctCount<T>(s: seq<T>)
    requires forall i, j :: 0 <= i < j < |s| ==> s[i] != s[j]
    ensures |(set x | x in s)| == |s|
  {
    if |s| > 0 {
      var init := s[..|s| - 1];
      DistinctCount(init);
      assert (set x | x in s) == (set x | x in init) + {s[|s| - 1]};
    }
  }

  /**
   * A whole scan from the selected root: nothing when the root cannot be
   * listed, otherwise exactly the files and folders at every depth beneath
   * it; on a well-formed tree each of them exactly once.
   */
  lemma ScanComplete(root: Entry)
    ensures !root.Dir? ==> ScanFolder(root) == Scan([], [])
    ensures root.Dir? ==> forall f :: f in ScanFolder(root).files <==> f in AllFiles(root, "")
    ensures root.Dir? ==> forall q :: q in ScanFolder(root).folders <==> q in AllFolders(root, "")
    ensures root.Dir? && WellFormed(root) ==>
              && DistinctPaths(ScanFolder(root).files)
              && |ScanFolder(root).files| == |AllFiles(root, "")|
              && |ScanFolder(root).folders| == |AllFolders(root, "")|
  {
    if root.Dir? {
      WalkComplete(root, "");
      if WellFormed(root) {
        WalkCounts(root, "");
      }
    }
  }

  /** On a well-formed tree the walk records each file and each folder beneath it exactly once. */
  lemma WalkCounts(d: Entry, rel: string)
    requires d.Dir? && WellFormed(d) && NoSlash(rel)
    ensures DistinctPaths(Walk(d, rel).files)
    ensures |Walk(d, rel).files| == |AllFiles(d, rel)|
    ensures |Walk(d, rel).folders| == |AllFolders(d, rel)|
  {
    var w := Walk(d, rel);
    WalkComplete(d, rel);
    WalkDistinct(d, rel);
    assert forall i, j :: 0 <= i < j < |w.files| ==> w.files[i] != w.files[j];
    ListsSet(w.files, AllFiles(d, rel));
    ListsSet(w.folders, AllFolders(d, rel));
  }

  /** A sequence without repeats whose elements are exactly those of a set is as long as the set is large. */
  lemma ListsSet<T>(s: seq<T>, all: set<T>)
    requires forall i, j :: 0 <= i < j < |s| ==> s[i] != s[j]
    requires forall x :: x in s <==> x in all
    ensures |s| == |all|
  {
    DistinctCount(s);
    assert (set x | x in s) == all;
  }

  /**
   * Why the ordering lemmas need separator-free names: a root file named
   * x\z\w is recorded before the file y of folder x, yet the folder part
   * x\z of its path lies inside x, so files-first fails.
   */
  lemma BackslashNameBreaksFilesFirst()
    ensures var root := Dir("r", [File("x\\z\\w", 0, []), Dir("x", [File("y", 0, [])])]);
            !FilesFirst(ScanFolder(root).files)
  {
    var root := Dir("r", [File("x\\z\\w", 0, []), Dir("x", [File("y", 0, [])])]);
    var fs := ScanFolder(root).files;
    assert fs[0].path == "x\\z\\w";
    assert fs[1].path == "x\\y";
    assert DirOf(fs[0].path) == "x\\z";
    assert DirOf(fs[1].path) == "x";
    assert StrictlyBelow(DirOf(fs[0].path), DirOf(fs[1].path));
  }
}
